=== FILE: README.md ===
# toolchain-installer-maven-plugin, modelled in Dafny

A model of the `install` goal of the toolchain installer Maven plugin and proofs about it.

For every required toolchain type, the goal does the following:

- It uses a toolchain Maven already knows whose type is equal and which matches the requirement.
- For a JDK requirement that nothing serves, it runs a provider chain:
  1. an SDKMAN! installation;
  2. the JBang launcher;
  3. a download from the Foojay Disco API.
- It registers the JDK a provider finds by appending a `toolchain` record to `~/.m2/toolchains.xml`.
- It then adds that JDK to the session's request.
- At the end, it fails with one message that names every requirement left unmet.

The model is pure and functional:

- The machine is an immutable `World`. It holds:
  - the set of existing absolute paths (ancestors are implied);
  - the archives stored in files;
  - the toolchains registry, as a parsed XML tree.
- The system properties read are an `Env`.
- HTTP GET, file download and child processes are the functions of a `Platform`.
- The orchestrator (`ToolchainInstaller`) is generic: the providers are functions over an abstract world. Maven's own toolchains are an abstract type, known only through:
  - their type;
  - `matchesRequirements`;
  - `getToolchainsForType`.
- `Plugin` plugs the three real providers in.

Modules, following the source's packages:

| module | file | models |
|---|---|---|
| `Optional`, `Text`, `Paths`, `Xml` | optional.dfy, text.dfy, paths.dfy, xml.dfy | Java null, the `String` operations used, `java.nio.file.Path` resolution (Unix rules), `Xpp3Dom` trees |
| `ToolchainXml` | toolchain_xml.dfy | `ToolchainXmlHelper` |
| `Machine` | machine.dfy | the environment, the world and the shared "register inside a `try`" step |
| `Sdkman` | sdkman.dfy | `SdkmanHelper` |
| `JBang` | jbang.dfy | `JBangHelper` |
| `FoojayService`, `FoojayHelper` | foojay_service.dfy, foojay_helper.dfy | `FoojayService`, `FoojayHelper` |
| `ToolchainInstaller` | mojo.dfy | `ToolchainInstallerMojo` |
| `Plugin` | plugin.dfy | the goal wired to the real providers |

`FoojayService` tests an archive's file name for a suffix in two places, and the two tests differ:

- The root-entry reader (`getRootNameInArchive`) picks tar for names ending in `tar.gz` or `tgz`, without a dot.
- The unarchiver (`extractArchiveFile`) picks tar only for names ending in `.tgz` or `.tar.gz`.
- So the two disagree on a name like `jdk-17tgz`. The model keeps both tests as written, and `FoojayService.FormatChoicesDiffer` exhibits that name.

## Model

| member | source | states |
|---|---|---|
| ToolchainXml.BuildJdkToolchain | src/main/java/org/cyanic/maven/plugins/toolchain/xml/ToolchainXmlHelper.java:61-85 | the returned toolchain has type `jdk`, provides exactly `version` and `vendor`, has one configuration child, and its Java home is the given path |
| ToolchainXml.JdkToolchainDom | src/main/java/org/cyanic/maven/plugins/toolchain/xml/ToolchainXmlHelper.java:87-107 | the appended node is `toolchain`, no element carrying attributes, with children `type`=`jdk`, then `provides` (`version` then `vendor`), then `configuration` holding only `jdkHome` |
| ToolchainXml.RecordRoundTrip | src/main/java/org/cyanic/maven/plugins/toolchain/xml/ToolchainXmlHelper.java:87-115 | reading the written record by element name gives back exactly the type, version, vendor and home it was written from, an empty vendor included |
| ToolchainXml.ModelAgreesWithRecord | src/main/java/org/cyanic/maven/plugins/toolchain/xml/ToolchainXmlHelper.java:37-50 | the returned toolchain and the appended record describe the same JDK |
| ToolchainXml.StartingRoot | src/main/java/org/cyanic/maven/plugins/toolchain/xml/ToolchainXmlHelper.java:44-48 | the root is the parsed file when there is one, a fresh empty `toolchains` node when there is none, and unavailable when the file cannot be parsed |
| ToolchainXml.AddJdkToToolchains | src/main/java/org/cyanic/maven/plugins/toolchain/xml/ToolchainXmlHelper.java:37-59 | registration succeeds exactly when the version is non-null, the file is parseable or missing, its directory exists and its permissions allow writing; the home is made absolute; the new file is the old root with the record appended |
| ToolchainXml.RegistrationAppendsOneRecord | src/main/java/org/cyanic/maven/plugins/toolchain/xml/ToolchainXmlHelper.java:44-50 | a registration takes the record count from N to N+1, keeps the N old records in order, keeps the root's own content, and the new last record reads back as the returned toolchain |
| Machine.Register | src/main/java/org/cyanic/maven/plugins/toolchain/jbang/JBangHelper.java:55-66 | registering inside a provider's `try` never throws; it gives a toolchain exactly when registration succeeds, and then the registry is extended by one matching record; otherwise nothing changes; it can succeed only while `~/.m2` exists on the filesystem |
| Sdkman.GetJdkFromSdkman | src/main/java/org/cyanic/maven/plugins/toolchain/sdkman/SdkmanHelper.java:31-57 | a missing candidates directory, a null version or a missing version directory give null with nothing changed; an existing one is registered with an empty vendor; nothing escapes |
| Sdkman.LooksUpFullVersion | src/main/java/org/cyanic/maven/plugins/toolchain/sdkman/SdkmanHelper.java:41-47 | the directory looked up is `candidates/java/<version>` with the full version string |
| JBang.ResolveVersion | src/main/java/org/cyanic/maven/plugins/toolchain/jbang/JBangHelper.java:74-84 | the major version has no dot; a dotless version is kept; a `1.` version gives `8`; any other version gives the text before its first dot |
| JBang.ResolveVersionIdempotent | src/main/java/org/cyanic/maven/plugins/toolchain/jbang/JBangHelper.java:74-84 | normalising twice is normalising once |
| JBang.ResolveVersionExamples | src/main/java/org/cyanic/maven/plugins/toolchain/jbang/JBangHelper.java:74-84 | `17` gives `17`, `1.8` gives `8`, `17.0.1` gives `17`, `21.0.2+13` gives `21` |
| JBang.Launcher | src/main/java/org/cyanic/maven/plugins/toolchain/jbang/JBangHelper.java:43-47 | the launcher sits in `~/.jbang/bin` and is `jbang.cmd` when the lower-cased OS name contains `windows`, else `jbang` |
| JBang.GetJdkFromJbang | src/main/java/org/cyanic/maven/plugins/toolchain/jbang/JBangHelper.java:31-72 | an existing install directory, a missing launcher or a failing process give null with nothing changed; otherwise the install directory is registered; a null version is the only exception that escapes |
| JBang.RegistersOriginalVersion | src/main/java/org/cyanic/maven/plugins/toolchain/jbang/JBangHelper.java:56-63 | the registered JDK has the full version, while its home is the major-version directory |
| FoojayService.OsOf | src/main/java/org/cyanic/maven/plugins/toolchain/foojay/FoojayService.java:189-199 | macOS exactly when the lower-cased name contains `mac`, Windows when it contains `windows` and not `mac`, Linux otherwise |
| FoojayService.OsExamples | src/main/java/org/cyanic/maven/plugins/toolchain/foojay/FoojayService.java:189-199 | `Mac OS X`, `Windows 11` and `Linux` are classified as macOS, Windows and Linux |
| FoojayService.ArchOf | src/main/java/org/cyanic/maven/plugins/toolchain/foojay/FoojayService.java:201-213 | x32 exactly for `x86_32`/`amd32`, aarch64 for `aarch64`/`arm64` unless x32, x64 otherwise |
| FoojayService.ArchExamples | src/main/java/org/cyanic/maven/plugins/toolchain/foojay/FoojayService.java:201-213 | `amd64` and plain `x86` are x64, `aarch64` is aarch64 |
| FoojayService.ArchiveType | src/main/java/org/cyanic/maven/plugins/toolchain/foojay/FoojayService.java:135 | `zip` exactly on Windows, `tar.gz` otherwise |
| FoojayService.Bitness | src/main/java/org/cyanic/maven/plugins/toolchain/foojay/FoojayService.java:137 | `32` exactly for x32, `64` otherwise |
| FoojayService.LibcType | src/main/java/org/cyanic/maven/plugins/toolchain/foojay/FoojayService.java:139-144 | `glibc` exactly on Linux, `c_std_lib` exactly on Windows, `libc` exactly on macOS |
| FoojayService.QueryUrl | src/main/java/org/cyanic/maven/plugins/toolchain/foojay/FoojayService.java:146-154 | the search URL is the endpoint, a `?`, then the query built from the derived parameters followed by the fixed filters |
| FoojayService.QueryCarriesParameters | src/main/java/org/cyanic/maven/plugins/toolchain/foojay/FoojayService.java:146-154 | reading the search URL's query gives the seven derived parameters in their fixed order, then the seven fixed filters, and nothing else |
| FoojayService.QueryRoundTrip | src/main/java/org/cyanic/maven/plugins/toolchain/foojay/FoojayService.java:146-154 | any list of separable parameters written as an unencoded query reads back as that list |
| FoojayService.ParseFileNameAndDownloadUrl | src/main/java/org/cyanic/maven/plugins/toolchain/foojay/FoojayService.java:156-187 | a file name and link come out exactly when both replies are 200 and carry the fields they are read from; any other status or exception gives null |
| FoojayService.JdksDir | src/main/java/org/cyanic/maven/plugins/toolchain/foojay/FoojayService.java:69-79 | the `jdk.home` property when set, else `~/.m2/jdks` |
| FoojayService.MakeDir | src/main/java/org/cyanic/maven/plugins/toolchain/foojay/FoojayService.java:81-83 | creating the directory only adds paths and leaves the registry alone; an existing directory or a missing parent changes nothing; a missing directory whose parent exists is created and then exists |
| FoojayService.RootReaderFormat | src/main/java/org/cyanic/maven/plugins/toolchain/foojay/FoojayService.java:238-242 | the root-entry reader is tar exactly for names ending in `tar.gz` or `tgz`, no dot needed |
| FoojayService.ExtractorFormat | src/main/java/org/cyanic/maven/plugins/toolchain/foojay/FoojayService.java:256-260 | the unarchiver is tar exactly for names ending in `.tgz` or `.tar.gz` |
| FoojayService.FormatChoicesAgree | src/main/java/org/cyanic/maven/plugins/toolchain/foojay/FoojayService.java:235-260 | both choices pick tar for `.tar.gz`/`.tgz` names and zip for names with neither suffix; when the unarchiver picks tar so does the reader |
| FoojayService.FormatChoicesDiffer | src/main/java/org/cyanic/maven/plugins/toolchain/foojay/FoojayService.java:238-256 | on `jdk-17tgz` the reader picks tar and the unarchiver zip |
| FoojayService.ArchiveObtained | src/main/java/org/cyanic/maven/plugins/toolchain/foojay/FoojayService.java:216-221 | a missing archive file is downloaded; an existing one is used as it is, without a download |
| FoojayService.DownloadAndExtract | src/main/java/org/cyanic/maven/plugins/toolchain/foojay/FoojayService.java:215-233 | downloads exactly when the archive file is missing; succeeds exactly when an archive is there whose format both choices match and which has an entry; the result is `destDir/<first entry>`; the entries are created, the archive file is gone, the registry is unchanged; a failure leaves the world as it was plus any archive just fetched, which stays for the next attempt |
| FoojayService.JdkHomeBelow | src/main/java/org/cyanic/maven/plugins/toolchain/foojay/FoojayService.java:87-89 | the home is `Contents/Home` under the root exactly when that exists, else the root |
| FoojayService.DownloadAndExtractJdk | src/main/java/org/cyanic/maven/plugins/toolchain/foojay/FoojayService.java:56-104 | no package gives null and changes nothing; with a package the world is what the download and unpacking into the JDK directory left, a home or an exception alike; the home is returned exactly when unpacking succeeded and, for a GraalVM vendor, the `gu` step started; the registry is never touched |
| FoojayHelper.VersionText | src/main/java/org/cyanic/maven/plugins/toolchain/foojay/FoojayService.java:148 | a null version is written as `null` in the query |
| FoojayHelper.GetJdkFromFoojay | src/main/java/org/cyanic/maven/plugins/toolchain/foojay/FoojayHelper.java:31-47 | a home from the service is registered with the version and vendor as given; no package or a service exception gives null; nothing escapes; a toolchain needs a non-null version |
| FoojayHelper.NoPackageLeavesWorld | src/main/java/org/cyanic/maven/plugins/toolchain/foojay/FoojayService.java:59-63 | when no package is found the provider gives null and changes nothing |
| ToolchainInstaller.ParseBoolean | src/main/java/org/cyanic/maven/plugins/toolchain/ToolchainInstallerMojo.java:104 | true exactly for the text `true` in any case, so only four-character texts |
| ToolchainInstaller.ShouldSkip | src/main/java/org/cyanic/maven/plugins/toolchain/ToolchainInstallerMojo.java:100-108 | without the property the `skip` parameter decides; with it, skipping happens exactly when the property reads `true` ignoring case |
| ToolchainInstaller.SkipPrecedence | src/main/java/org/cyanic/maven/plugins/toolchain/ToolchainInstallerMojo.java:100-108 | for every property value and every `skip` setting, the property alone decides, and only `true` in any case skips |
| ToolchainInstaller.Get | src/main/java/org/cyanic/maven/plugins/toolchain/ToolchainInstallerMojo.java:120-122 | a parameter's value is the one under the first entry with that key, null when there is none |
| ToolchainInstaller.NormalizeKind | src/main/java/org/cyanic/maven/plugins/toolchain/ToolchainInstallerMojo.java:111-113 | the type looked up is `jdk` exactly for `jdk` and `testJdk`; every other type is kept as spelled |
| ToolchainInstaller.ResolveVendor | src/main/java/org/cyanic/maven/plugins/toolchain/ToolchainInstallerMojo.java:122-127 | an absent or empty vendor becomes `oracle_open_jdk`; any other vendor is kept |
| ToolchainInstaller.Order | src/main/java/org/cyanic/maven/plugins/toolchain/ToolchainInstallerMojo.java:129-145 | the default vendor, ignoring case, gets SDKMAN!, then JBang, then Foojay; any other vendor gets Foojay alone |
| ToolchainInstaller.Attempt | src/main/java/org/cyanic/maven/plugins/toolchain/ToolchainInstallerMojo.java:129-145 | the providers called are a prefix of the chain; the chain stops early only on a non-null reply; the first provider's non-null answer is the chain's; a one-provider chain is that provider's answer |
| ToolchainInstaller.AttemptAppend | src/main/java/org/cyanic/maven/plugins/toolchain/ToolchainInstallerMojo.java:129-145 | running two chains in turn is running the first and, only when it gave null, the second on the world the first left |
| ToolchainInstaller.ChainStopsAtFirstAnswer | src/main/java/org/cyanic/maven/plugins/toolchain/ToolchainInstallerMojo.java:135-147 | when every provider before one answered null and that one does not, the chain returns that answer and calls no provider after it |
| ToolchainInstaller.LocalChain | src/main/java/org/cyanic/maven/plugins/toolchain/ToolchainInstallerMojo.java:129-145 | for the default vendor: a non-null SDKMAN! answer ends the chain; otherwise JBang runs on what SDKMAN! left; Foojay runs only when both gave null, and its answer is the chain's |
| ToolchainInstaller.RemoteChain | src/main/java/org/cyanic/maven/plugins/toolchain/ToolchainInstallerMojo.java:129-145 | for any other vendor the chain's answer is Foojay's, and Foojay is the only call |
| ToolchainInstaller.AddToRequest | src/main/java/org/cyanic/maven/plugins/toolchain/ToolchainInstallerMojo.java:204-212 | the `jdk` list, created when missing, gains the model at its end; every other type's list is unchanged |
| ToolchainInstaller.FirstMatch | src/main/java/org/cyanic/maven/plugins/toolchain/ToolchainInstallerMojo.java:184-194 | the first available toolchain whose type is equal and which matches; none exactly when none qualifies |
| ToolchainInstaller.Store | src/main/java/org/cyanic/maven/plugins/toolchain/ToolchainInstallerMojo.java:154-157 | a toolchain is appended to the build context exactly when the type is `jdk`; nothing else changes |
| ToolchainInstaller.Select | src/main/java/org/cyanic/maven/plugins/toolchain/ToolchainInstallerMojo.java:110-163 | one requirement adds at most one toolchain to the build context, and only for type `jdk`; the request gains a model only for a toolchain a provider returned; an unmet requirement changes neither |
| ToolchainInstaller.TestJdkIsJdk | src/main/java/org/cyanic/maven/plugins/toolchain/ToolchainInstallerMojo.java:111-113 | a `testJdk` requirement is handled exactly as a `jdk` one |
| ToolchainInstaller.MisconfiguredHalts | src/main/java/org/cyanic/maven/plugins/toolchain/ToolchainInstallerMojo.java:195-197 | a failing lookup stops the run with `Misconfigured toolchains` and changes nothing |
| ToolchainInstaller.ExistingMatchWins | src/main/java/org/cyanic/maven/plugins/toolchain/ToolchainInstallerMojo.java:117-160 | the first qualifying known toolchain is used and no provider is called |
| ToolchainInstaller.ProvidersTried | src/main/java/org/cyanic/maven/plugins/toolchain/ToolchainInstallerMojo.java:119-145 | with nothing known, a type equal to `jdk` ignoring case runs the vendor's chain: only Foojay for a non-default vendor; an escaping exception stops the run with its reason; other types are unmet without a call |
| ToolchainInstaller.InstalledIsRecorded | src/main/java/org/cyanic/maven/plugins/toolchain/ToolchainInstallerMojo.java:147-159 | a provider's toolchain is appended to the request's `jdk` list; it is stored to the build context only when the normalised type is exactly `jdk` |
| ToolchainInstaller.ProcessAll | src/main/java/org/cyanic/maven/plugins/toolchain/ToolchainInstallerMojo.java:75-81 | one result per requirement, in order; calls, stored toolchains and the `jdk` list only grow, by at most one stored toolchain per requirement |
| ToolchainInstaller.ProcessAllHalts | src/main/java/org/cyanic/maven/plugins/toolchain/ToolchainInstallerMojo.java:75-81 | a run stops exactly when the selection for some requirement, reached after every earlier one carried on, throws |
| ToolchainInstaller.ProcessAllHaltsThere | src/main/java/org/cyanic/maven/plugins/toolchain/ToolchainInstallerMojo.java:75-81 | a run that a selection stops ends with that selection's state and exception message |
| ToolchainInstaller.ProcessAllResolved | src/main/java/org/cyanic/maven/plugins/toolchain/ToolchainInstallerMojo.java:75-81 | in a finished run, each requirement's result is whether its selection, made after all earlier ones, met it |
| ToolchainInstaller.KnownToolchainsNeedNoProvider | src/main/java/org/cyanic/maven/plugins/toolchain/ToolchainInstallerMojo.java:75-81 | when every requirement is served by a known toolchain, all are met, no provider runs and the world and request are untouched |
| ToolchainInstaller.UnmetPositions | src/main/java/org/cyanic/maven/plugins/toolchain/ToolchainInstallerMojo.java:75-81 | the unmet requirements' positions in increasing order, every unmet one and only those |
| ToolchainInstaller.Unmatched | src/main/java/org/cyanic/maven/plugins/toolchain/ToolchainInstallerMojo.java:73-81 | the unmet types with their original spelling, in requirement order and nothing else |
| ToolchainInstaller.NoneUnmatched | src/main/java/org/cyanic/maven/plugins/toolchain/ToolchainInstallerMojo.java:83 | no type is listed exactly when every requirement was met |
| ToolchainInstaller.LinesAppend | src/main/java/org/cyanic/maven/plugins/toolchain/ToolchainInstallerMojo.java:88-91 | the message lines for two lists of types are the first list's lines followed by the second's; one type gives a line separator and its formatted requirement |
| ToolchainInstaller.Execute | src/main/java/org/cyanic/maven/plugins/toolchain/ToolchainInstallerMojo.java:66-98 | the run is skipped exactly when the skip flag says so; it aborts exactly when a requirement stops it, with that requirement's reason (such as `Misconfigured toolchains`) as the exception message |
| ToolchainInstaller.FailsIffUnresolved | src/main/java/org/cyanic/maven/plugins/toolchain/ToolchainInstallerMojo.java:83-97 | a finished run fails exactly when some requirement is unmet, and succeeds exactly when all are met; the message is exactly the header, the unmet types' lines in requirement order, a line separator and the hint; it holds a line for each unmet requirement |
| ToolchainInstaller.FailureMessage | src/main/java/org/cyanic/maven/plugins/toolchain/ToolchainInstallerMojo.java:84-96 | the message starts with the header, ends with a line separator and the hint, and holds exactly the requirement lines between them |
| ToolchainInstaller.MessageShape | src/main/java/org/cyanic/maven/plugins/toolchain/ToolchainInstallerMojo.java:84-96 | the message starts with the header, ends with a line separator and the hint, and holds a separator plus the formatted requirement for each type given |
| ToolchainInstaller.FailureShowsOwnParams | src/main/java/org/cyanic/maven/plugins/toolchain/ToolchainInstallerMojo.java:88-91 | with distinct types, each line shows that requirement's own parameters |
| ToolchainInstaller.FormatRequirement | src/main/java/org/cyanic/maven/plugins/toolchain/ToolchainInstallerMojo.java:165-182 | the line starts with `type [` and ends with ` ]`; no parameters gives `type [ any ]`; otherwise the parameters' pieces stand between |
| ToolchainInstaller.FormatParamsAppend | src/main/java/org/cyanic/maven/plugins/toolchain/ToolchainInstallerMojo.java:173-176 | one ` key = 'value'` piece per parameter, in iteration order |
| ToolchainInstaller.FormatShowsParams | src/main/java/org/cyanic/maven/plugins/toolchain/ToolchainInstallerMojo.java:165-182 | every parameter of a requirement appears in its line as ` key = 'value'` |
| ToolchainInstaller.FormatExamples | src/main/java/org/cyanic/maven/plugins/toolchain/ToolchainInstallerMojo.java:165-182 | `testJdk` without parameters gives `testJdk [ any ]`; `jdk` with version 17 gives `jdk [ version = '17' ]` |
| Plugin.LiveProviders | src/main/java/org/cyanic/maven/plugins/toolchain/ToolchainInstallerMojo.java:132-144 | the chain's providers are SDKMAN! (no vendor), JBang and Foojay (with the vendor) |
| Plugin.ChainRegistersOnce | src/main/java/org/cyanic/maven/plugins/toolchain/ToolchainInstallerMojo.java:129-145 | a chain appends exactly one record, which reads back as the toolchain it returns, when it returns one, and leaves the registry untouched otherwise |
| Plugin.SelectRegisters | src/main/java/org/cyanic/maven/plugins/toolchain/ToolchainInstallerMojo.java:147-149 | one requirement appends as many records as it adds models to the request's `jdk` list |
| Plugin.RunIsAppendOnly | src/main/java/org/cyanic/maven/plugins/toolchain/ToolchainInstallerMojo.java:75-81 | a whole run, even one that stops early, only appends to the registry: one record for every JDK a provider obtained |

## Left out

- The HTTP client, proxy settings and credentials are not modelled. Neither is Gson parsing: a reply is its status code plus the three fields read from it, each absent when reading it would throw.
- Archive decoding (gzip, tar, ZIP) is not modelled. An archive is its real format and its entry names; unpacking creates the entries' paths below the destination; a mismatched format or an empty archive fails.
- Processes are a `spawn` function. JBang's exit code is not looked at. The GraalVM `gu` process is started but never waited for, so only whether it starts is modelled.
- Only the existence of files is modelled. Contents are not, and neither are permissions, nor the partial file a failed download or a failed `FileWriter` write can leave behind. A failed write leaves the registry as it was.
- The registry is `~/.m2/toolchains.xml` by its parsed tree. Byte-level XML reading and writing is not modelled. The file's state is kept apart from the filesystem: whether `~/.m2` exists is read from the filesystem when writing, but the file itself is not one of the filesystem's paths.
- `matchesRequirements`, `getToolchainsForType` and `storeToolchainToBuildContext` are Maven library code. The first two are parameters; storing is recorded as an appended entry.
- `ToolchainConfig` and the `toolchains` map are a sequence of requirements, which fixes the map's iteration order. Distinct types are assumed only by `FailureShowsOwnParams`.
- The Maven `skip` parameter and the system property are inputs of `Execute`.
- Log messages are not modelled; no decision depends on them.
- Case folding covers ASCII letters only. Java's `toLowerCase` and `equalsIgnoreCase` cover Unicode.
- Paths follow Unix rules. Windows drive letters and separators are not modelled.
- The only exception modelled as escaping a provider is the one a null version raises in JBang's `resolveVersion`. Exceptions from missing system properties are not modelled.
- FoojayService.QueryCarriesParameters: holds only for a vendor and version without `&`. Nothing is URL-encoded, so such a value starts another parameter.

=== FILE: foojay_helper.dfy ===
/** The remote provider (`FoojayHelper`): download a JDK with the Foojay service and register it. */
module FoojayHelper {
  import opened Optional
  import opened Machine
  import opened FoojayService

  /** The version as it appears in the query: Java's string concatenation writes a null as `null`. */
  function VersionText(version: Option<string>): (t: string)
    ensures version.Some? ==> t == version.value
    ensures version.None? ==> t == "null"
  {
    version.Or("null")
  }

  /**
   * `getJdkFromFoojay`: register the JDK home the service hands back. No
   * package, any exception from the service and a failing registration all
   * give null; nothing escapes. A failure keeps the world the service left
   * behind, such as the directory it made or an archive it fetched: nothing is
   * rolled back.
   */
  function GetJdkFromFoojay(env: Env, platform: Platform, w: World, version: Option<string>, vendor: string)
    : (a: Answer<World>)
    ensures !a.reply.Escaped?
    ensures var s := DownloadAndExtractJdk(env, platform, w, VersionText(version), vendor);
            && (s.outcome.Home? ==> a == Register(env, s.world, s.outcome.path, version, vendor))
            && (!s.outcome.Home? ==> a == Answer(NotFound, s.world))
    ensures a.reply.Found? ==> version.Some?
    ensures !a.reply.Found? ==> a.world.registry == w.registry
  {
    var s := DownloadAndExtractJdk(env, platform, w, VersionText(version), vendor);
    match s.outcome
    case Home(home) => Register(env, s.world, home, version, vendor)
    case _ => Answer(NotFound, s.world)
  }

  /**
   * With no package to be found the provider changes nothing: no directory is
   * created and nothing is downloaded.
   */
  lemma NoPackageLeavesWorld(env: Env, platform: Platform, w: World, version: Option<string>, vendor: string)
    requires ParseFileNameAndDownloadUrl(platform,
               QueryUrl(vendor, VersionText(version), OsOf(env.osName), ArchOf(env.osArch))).None?
    ensures GetJdkFromFoojay(env, platform, w, version, vendor) == Answer(NotFound, w)
  {
  }
}

=== FILE: foojay_service.dfy ===
/**
 * The remote provider's download logic (`FoojayService`): classify the
 * platform, query the Foojay Disco API for a package, download it unless it
 * is cached, unpack it and work out the JDK home inside it.
 */
module FoojayService {
  import opened Optional
  import opened Text
  import opened Paths
  import opened Machine

  datatype Os = Linux | MacOs | Windows

  datatype Arch = X32 | X64 | Aarch64

  /** `getOsName`: `mac` is looked for first, then `windows`; anything else is Linux. */
  function OsOf(osName: string): (os: Os)
    ensures os == MacOs <==> Contains(ToLower(osName), "mac")
    ensures os == Windows <==> !Contains(ToLower(osName), "mac") && Contains(ToLower(osName), "windows")
    ensures os == Linux <==> !Contains(ToLower(osName), "mac") && !Contains(ToLower(osName), "windows")
  {
    var os := ToLower(osName);
    if Contains(os, "mac") then MacOs
    else if Contains(os, "windows") then Windows
    else Linux
  }

  /** `getArchName`: 32-bit x86 first, then 64-bit ARM; anything else is x64. */
  function ArchOf(osArch: string): (arch: Arch)
    ensures arch == X32 <==> Contains(ToLower(osArch), "x86_32") || Contains(ToLower(osArch), "amd32")
    ensures arch == Aarch64 <==> !(Contains(ToLower(osArch), "x86_32") || Contains(ToLower(osArch), "amd32"))
                                 && (Contains(ToLower(osArch), "aarch64") || Contains(ToLower(osArch), "arm64"))
  {
    var arch := ToLower(osArch);
    if Contains(arch, "x86_32") || Contains(arch, "amd32") then X32
    else if Contains(arch, "aarch64") || Contains(arch, "arm64") then Aarch64
    else X64
  }

  /** `os.name` values of the three platforms. */
  lemma OsExamples()
    ensures OsOf("Mac OS X") == MacOs
    ensures OsOf("Windows 11") == Windows
    ensures OsOf("Linux") == Linux
  {
    var mac := ToLower("Mac OS X");
    assert OccursAt(mac, "mac", 0) by { assert mac[..3] == "mac"; }
    var win := ToLower("Windows 11");
    assert win == "windows 11";
    MissingChar(win, "mac", 'm');
    assert OccursAt(win, "windows", 0) by { assert win[..7] == "windows"; }
    var linux := ToLower("Linux");
    assert linux == "linux";
    MissingChar(linux, "mac", 'm');
    MissingChar(linux, "windows", 'w');
  }

  /** `os.arch` values: a 64-bit Intel JVM, an ARM one, and a 32-bit Intel one that reports plain `x86`. */
  lemma ArchExamples()
    ensures ArchOf("amd64") == X64
    ensures ArchOf("aarch64") == Aarch64
    ensures ArchOf("x86") == X64
  {
    assert ToLower("amd64") == "amd64";
    MissingChar("amd64", "x86_32", 'x');
    MissingChar("amd64", "amd32", '3');
    MissingChar("amd64", "aarch64", 'c');
    MissingChar("amd64", "arm64", 'r');
    assert ToLower("aarch64") == "aarch64";
    MissingChar("aarch64", "x86_32", 'x');
    MissingChar("aarch64", "amd32", 'm');
    assert OccursAt("aarch64", "aarch64", 0);
    assert ToLower("x86") == "x86";
    MissingChar("x86", "x86_32", '_');
    MissingChar("x86", "amd32", 'a');
    MissingChar("x86", "aarch64", 'a');
    MissingChar("x86", "arm64", 'a');
  }

  /** The `operating_system` value sent. */
  function OsId(os: Os): string {
    match os
    case Linux => "linux"
    case MacOs => "macos"
    case Windows => "windows"
  }

  /** The `architecture` value sent. */
  function ArchId(arch: Arch): string {
    match arch
    case X32 => "x32"
    case X64 => "x64"
    case Aarch64 => "aarch64"
  }

  /** The archive type asked for: a zip on Windows, a gzipped tar elsewhere. */
  function ArchiveType(os: Os): (t: string)
    ensures t == "zip" <==> os == Windows
    ensures t != "zip" ==> t == "tar.gz"
  {
    if os == Windows then "zip" else "tar.gz"
  }

  /** `32` exactly for 32-bit x86. */
  function Bitness(arch: Arch): (b: string)
    ensures b == "32" <==> arch == X32
    ensures b != "32" ==> b == "64"
  {
    if arch == X32 then "32" else "64"
  }

  /**
   * The C library each OS is asked for with. The source's fallback, an empty
   * value, is for an OS name `getOsName` never returns.
   */
  function LibcType(os: Os): (libc: string)
    ensures libc == "glibc" <==> os == Linux
    ensures libc == "c_std_lib" <==> os == Windows
    ensures libc == "libc" <==> os == MacOs
  {
    match os
    case Linux => "glibc"
    case Windows => "c_std_lib"
    case MacOs => "libc"
  }

  /** The package search endpoint; the query follows a `?`. */
  const DiscoPackages := "https://api.foojay.io/disco/v3.0/packages"

  /** The parameters derived for one query, in the order they are sent. */
  function DerivedParameters(vendor: string, version: string, os: Os, arch: Arch): seq<(string, string)> {
    [ ("distribution", vendor), ("version", version), ("operating_system", OsId(os)),
      ("architecture", ArchId(arch)), ("bitness", Bitness(arch)), ("archive_type", ArchiveType(os)),
      ("libc_type", LibcType(os)) ]
  }

  /** The filters every query ends with: the latest GA JDK, directly downloadable, without JavaFX. */
  const FixedParameters: seq<(string, string)> :=
    [ ("latest", "overall"), ("package_type", "jdk"), ("discovery_scope_id", "directly_downloadable"),
      ("match", "any"), ("javafx_bundled", "false"), ("directly_downloadable", "true"),
      ("release_status", "ga") ]

  /** One `key=value` field. */
  function Field(kv: (string, string)): string {
    kv.0 + "=" + kv.1
  }

  /** The fields of `ps` with `&` between neighbours. Nothing is URL-encoded. */
  function Query(ps: seq<(string, string)>): string {
    Join(seq(|ps|, k requires 0 <= k < |ps| => Field(ps[k])), '&')
  }

  /**
   * The package search URL: the derived parameters, then the fixed filters,
   * as the source concatenates them.
   */
  function QueryUrl(vendor: string, version: string, os: Os, arch: Arch): (url: string)
    ensures StartsWith(url, DiscoPackages + "?")
    ensures QueryString(url) == Query(DerivedParameters(vendor, version, os, arch) + FixedParameters)
  {
    var url := DiscoPackages + "?" + Query(DerivedParameters(vendor, version, os, arch) + FixedParameters);
    assert url[..|DiscoPackages + "?"|] == DiscoPackages + "?";
    url
  }

  /** The query of a package search URL: what follows the endpoint and its `?`. */
  function QueryString(url: string): string {
    var prefix := DiscoPackages + "?";
    if StartsWith(url, prefix) then url[|prefix|..] else ""
  }

  /** A `key=value` field, split at its first `=`. */
  function KeyValue(field: string): (string, string) {
    if '=' in field then
      var i := IndexOf(field, '=');
      (field[..i], field[i + 1..])
    else (field, "")
  }

  /** The `key=value` fields of a package search URL, in order. */
  function QueryParameters(url: string): seq<(string, string)> {
    var fields := Split(QueryString(url), '&');
    seq(|fields|, k requires 0 <= k < |fields| => KeyValue(fields[k]))
  }

  lemma KeyValueOf(key: string, value: string)
    requires '=' !in key
    ensures KeyValue(key + "=" + value) == (key, value)
  {
    IndexOfAfter(key, '=', value);
    var f := key + "=" + value;
    assert f[..|key|] == key && f[|key| + 1..] == value;
  }

  /** Parameters whose keys hold no `=` and whose keys and values hold no `&` can be told apart again. */
  predicate Separable(ps: seq<(string, string)>) {
    forall k :: 0 <= k < |ps| ==> '=' !in ps[k].0 && '&' !in ps[k].0 && '&' !in ps[k].1
  }

  /** Reading a query back gives the parameters it was built from. */
  lemma QueryRoundTrip(ps: seq<(string, string)>)
    requires |ps| >= 1 && Separable(ps)
    ensures QueryParameters(DiscoPackages + "?" + Query(ps)) == ps
  {
    var fields := seq(|ps|, k requires 0 <= k < |ps| => Field(ps[k]));
    var url := DiscoPackages + "?" + Query(ps);
    assert QueryString(url) == Query(ps) by {
      assert url[..|DiscoPackages + "?"|] == DiscoPackages + "?";
    }
    SplitJoin(fields, '&');
    forall k | 0 <= k < |ps|
      ensures QueryParameters(url)[k] == ps[k]
    {
      KeyValueOf(ps[k].0, ps[k].1);
    }
  }

  lemma FixedParametersSeparable()
    ensures Separable(FixedParameters)
  {
  }

  /**
   * The search URL carries exactly the derived parameters and then the fixed
   * filters, provided vendor and version hold no `&` (which, unencoded, would
   * start another parameter).
   */
  lemma QueryCarriesParameters(vendor: string, version: string, os: Os, arch: Arch)
    requires '&' !in vendor && '&' !in version
    ensures QueryParameters(QueryUrl(vendor, version, os, arch)) == DerivedParameters(vendor, version, os, arch) + FixedParameters
  {
    var derived := DerivedParameters(vendor, version, os, arch);
    assert Separable(derived);
    FixedParametersSeparable();
    QueryRoundTrip(derived + FixedParameters);
  }

  /** Both index replies were 200 and carried the fields read from them. */
  predicate Resolves(platform: Platform, url: string, fileName: string, link: string) {
    && platform.get(url).Some?
    && platform.get(url).value.code == 200
    && platform.get(url).value.body.pkgInfoUri.Some?
    && platform.get(url).value.body.filename == Some(fileName)
    && var info := platform.get(url).value.body.pkgInfoUri.value;
    && platform.get(info).Some?
    && platform.get(info).value.code == 200
    && platform.get(info).value.body.directDownloadUri == Some(link)
  }

  /**
   * `parseFileNameAndDownloadUrl` after the URL is built: search, follow the
   * first result's `pkg_info_uri`, and yield its `filename` and
   * `direct_download_uri`. Any other status and any exception give null.
   */
  function ParseFileNameAndDownloadUrl(platform: Platform, url: string): (r: Option<(string, string)>)
    ensures forall f, l :: r == Some((f, l)) <==> Resolves(platform, url, f, l)
  {
    match platform.get(url)
    case None => None
    case Some(search) =>
      if search.code != 200 then None
      else
        match search.body.pkgInfoUri
        case None => None
        case Some(info) =>
          match platform.get(info)
          case None => None
          case Some(pkg) =>
            if pkg.code != 200 then None
            else
              match (pkg.body.directDownloadUri, search.body.filename)
              case (Some(link), Some(fileName)) => Some((fileName, link))
              case _ => None
  }

  /** Where JDKs are unpacked: the `jdk.home` property when it is set, else `~/.m2/jdks`. */
  function JdksDir(env: Env): (dir: Path)
    ensures env.jdkHomeProperty.Some? ==> dir == Parse(env.jdkHomeProperty.value)
    ensures env.jdkHomeProperty.None? ==> dir == Child(Child(UserHome(env), ".m2"), "jdks")
  {
    match env.jdkHomeProperty
    case None => Child(Child(UserHome(env), ".m2"), "jdks")
    case Some(p) => Parse(p)
  }

  /** `dir.toFile().mkdir()`: creates the directory when it is missing and its parent exists; never throws. */
  function MakeDir(env: Env, w: World, dir: Path): (w': World)
    ensures w'.registry == w.registry && w'.archives == w.archives
    ensures w.fs <= w'.fs
    ensures OnDisk(env, w, dir) ==> w' == w
    ensures var d := Abs(env.cwd, dir);
            !Exists(w.fs, d) && Parent(d).Some? && Exists(w.fs, Parent(d).value) ==>
              w'.fs == w.fs + {d} && OnDisk(env, w', dir)
    ensures var d := Abs(env.cwd, dir);
            !(Parent(d).Some? && Exists(w.fs, Parent(d).value)) ==> w' == w
  {
    var d := Abs(env.cwd, dir);
    if Exists(w.fs, d) then w
    else
      match Parent(d)
      case Some(parent) =>
        if Exists(w.fs, parent) then
          ExistsAfterAdding(w.fs, d, d);
          w.(fs := w.fs + {d})
        else w
      case None => w
  }

  /** The reader `getRootNameInArchive` opens: tar for names ending in `tar.gz` or `tgz`, zip otherwise. */
  function RootReaderFormat(fileName: string): (f: ArchiveFormat)
    ensures f == TarGz <==> EndsWith(fileName, "tar.gz") || EndsWith(fileName, "tgz")
  {
    if EndsWith(fileName, "tar.gz") || EndsWith(fileName, "tgz") then TarGz else Zip
  }

  /** The unarchiver `extractArchiveFile` picks: tar for names ending in `.tgz` or `.tar.gz`, zip otherwise. */
  function ExtractorFormat(fileName: string): (f: ArchiveFormat)
    ensures f == TarGz <==> EndsWith(fileName, ".tgz") || EndsWith(fileName, ".tar.gz")
  {
    if EndsWith(fileName, ".tgz") || EndsWith(fileName, ".tar.gz") then TarGz else Zip
  }

  lemma EndsWithLonger(s: string, suffix: string, longer: string)
    requires EndsWith(s, longer) && EndsWith(longer, suffix)
    ensures EndsWith(s, suffix)
  {
    assert s[|s| - |suffix|..] == s[|s| - |longer|..][|longer| - |suffix|..];
  }

  /**
   * The two choices agree on names with a dotted suffix, and whenever the
   * unarchiver picks tar the reader does too.
   */
  lemma FormatChoicesAgree(fileName: string)
    ensures EndsWith(fileName, ".tar.gz") || EndsWith(fileName, ".tgz") ==>
              RootReaderFormat(fileName) == TarGz && ExtractorFormat(fileName) == TarGz
    ensures !EndsWith(fileName, "tar.gz") && !EndsWith(fileName, "tgz") ==>
              RootReaderFormat(fileName) == Zip && ExtractorFormat(fileName) == Zip
    ensures ExtractorFormat(fileName) == TarGz ==> RootReaderFormat(fileName) == TarGz
  {
    assert EndsWith(".tar.gz", "tar.gz") && EndsWith(".tgz", "tgz");
    if EndsWith(fileName, ".tar.gz") {
      EndsWithLonger(fileName, "tar.gz", ".tar.gz");
    }
    if EndsWith(fileName, ".tgz") {
      EndsWithLonger(fileName, "tgz", ".tgz");
    }
  }

  /** On a name ending in `tgz` without the dot the two choices differ. */
  lemma FormatChoicesDiffer()
    ensures RootReaderFormat("jdk-17tgz") == TarGz
    ensures ExtractorFormat("jdk-17tgz") == Zip
  {
    var name := "jdk-17tgz";
    assert name[|name| - 3..] == "tgz";
    assert name[|name| - 4..] != ".tgz" by { assert name[|name| - 4] == '7'; }
    assert name[|name| - 7..] != ".tar.gz" by { assert name[|name| - 7] == 'k'; }
  }

  /** The archive file the JDK is downloaded to: `destDir/fileName`. */
  function ArchiveFile(env: Env, destDir: Path, fileName: string): Path {
    Abs(env.cwd, Resolve(destDir, fileName))
  }

  /**
   * The archive that ends up in the archive file: the one already there when
   * it exists (no download), else the downloaded one. `None` when the
   * download throws or the existing file holds no archive.
   */
  function ArchiveObtained(env: Env, platform: Platform, w: World, link: string, file: Path): (a: Option<Archive>)
    ensures !Exists(w.fs, file) ==> a == platform.fetch(link)
    ensures Exists(w.fs, file) ==> (a.Some? <==> file in w.archives)
    ensures Exists(w.fs, file) && a.Some? ==> a.value == w.archives[file]
  {
    if Exists(w.fs, file) then
      if file in w.archives then Some(w.archives[file]) else None
    else platform.fetch(link)
  }

  datatype Extraction = Extracted(root: Path, world: World, downloaded: bool) | ExtractionFailed(world: World)

  /** The paths unpacking `entries` into `destDir` creates. */
  function Unpacked(env: Env, destDir: Path, entries: seq<string>): set<Path> {
    set k | 0 <= k < |entries| :: Abs(env.cwd, Resolve(destDir, entries[k]))
  }

  /**
   * `downloadAndExtract`: download `link` to `destDir/fileName` unless that file
   * already exists, read the name of the archive's first entry, unpack the
   * archive into `destDir` and delete it. The result is `destDir/<first entry>`.
   * Reading fails unless the reader's format is the archive's and it has an
   * entry; unpacking fails unless the unarchiver's format is the archive's.
   * A failure keeps an archive that was fetched, so a later attempt for the
   * same file finds it and does not download it again.
   */
  function DownloadAndExtract(env: Env, platform: Platform, w: World, link: string, fileName: string, destDir: Path)
    : (r: Extraction)
    ensures r.world.registry == w.registry
    ensures var file := ArchiveFile(env, destDir, fileName);
            r.ExtractionFailed? ==>
              r.world == if Exists(w.fs, file) || platform.fetch(link).None? then w
                         else w.(fs := w.fs + {file}, archives := w.archives[file := platform.fetch(link).value])
    ensures var file := ArchiveFile(env, destDir, fileName);
            var name := LastName(Resolve(destDir, fileName));
            && (r.Extracted? <==>
                  && ArchiveObtained(env, platform, w, link, file).Some?
                  && ArchiveObtained(env, platform, w, link, file).value.format == RootReaderFormat(name)
                  && ArchiveObtained(env, platform, w, link, file).value.format == ExtractorFormat(name)
                  && |ArchiveObtained(env, platform, w, link, file).value.entries| > 0)
            && (r.Extracted? ==>
                  && (r.downloaded <==> !Exists(w.fs, file))
                  && r.root == Resolve(destDir, ArchiveObtained(env, platform, w, link, file).value.entries[0])
                  && file !in r.world.fs
                  && file !in r.world.archives
                  && r.world.fs == (w.fs + Unpacked(env, destDir, ArchiveObtained(env, platform, w, link, file).value.entries)) - {file})
  {
    var file := ArchiveFile(env, destDir, fileName);
    var cached := Exists(w.fs, file);
    var downloaded :=
      if cached then Some(w)
      else match platform.fetch(link)
        case None => None
        case Some(a) => Some(w.(fs := w.fs + {file}, archives := w.archives[file := a]));
    match downloaded
    case None => ExtractionFailed(w)
    case Some(w1) =>
      var name := LastName(Resolve(destDir, fileName));
      if file !in w1.archives then ExtractionFailed(w1)
      else
        var a := w1.archives[file];
        if a.format != RootReaderFormat(name) || |a.entries| == 0 then ExtractionFailed(w1)
        else if a.format != ExtractorFormat(name) then ExtractionFailed(w1)
        else
          var unpacked := Unpacked(env, destDir, a.entries);
          var w2 := w1.(fs := (w1.fs + unpacked) - {file}, archives := w1.archives - {file});
          assert !cached ==> w1.fs + unpacked == w.fs + unpacked + {file};
          Extracted(Resolve(destDir, a.entries[0]), w2, !cached)
  }

  /** A macOS bundle keeps the JDK in `Contents/Home` below the unpacked root; descend into it when it exists. */
  function JdkHomeBelow(env: Env, w: World, root: Path): (home: Path)
    ensures home == root || home == Child(Child(root, "Contents"), "Home")
    ensures home != root <==> OnDisk(env, w, Child(Child(root, "Contents"), "Home"))
  {
    var bundle := Child(Child(root, "Contents"), "Home");
    if OnDisk(env, w, bundle) then bundle else root
  }

  /** `gu install native-image --ignore`, run with `GRAALVM_HOME` set to the JDK home. */
  function NativeImageCommand(env: Env, home: Path): Command {
    Command([Render(Abs(env.cwd, Child(Child(home, "bin"), "gu"))), "install", "native-image", "--ignore"],
            [("GRAALVM_HOME", Render(Abs(env.cwd, home)))])
  }

  datatype ServiceOutcome = Home(path: Path) | NoPackage | Failed

  datatype ServiceResult = ServiceResult(outcome: ServiceOutcome, world: World)

  /**
   * `downloadAndExtractJdk`: null when no package is found; otherwise the JDK
   * home under the JDK directory, or an exception from the download, the
   * unpacking, or starting the GraalVM `gu` step (started, never waited for).
   * A found package leaves the world the download and unpacking left, whether
   * the result is a home or an exception.
   */
  function DownloadAndExtractJdk(env: Env, platform: Platform, w: World, version: string, vendor: string)
    : (r: ServiceResult)
    ensures r.world.registry == w.registry
    ensures var url := QueryUrl(vendor, version, OsOf(env.osName), ArchOf(env.osArch));
            && (r.outcome.NoPackage? <==> ParseFileNameAndDownloadUrl(platform, url).None?)
            && (r.outcome.NoPackage? ==> r.world == w)
            && (r.outcome.Home? ==>
                  var (fileName, link) := ParseFileNameAndDownloadUrl(platform, url).value;
                  var x := DownloadAndExtract(env, platform, MakeDir(env, w, JdksDir(env)), link, fileName, JdksDir(env));
                  && x.Extracted?
                  && r.world == x.world
                  && r.outcome.path == JdkHomeBelow(env, x.world, x.root)
                  && (Contains(vendor, "graalvm") ==> platform.spawn(NativeImageCommand(env, r.outcome.path)).Some?))
    ensures var url := QueryUrl(vendor, version, OsOf(env.osName), ArchOf(env.osArch));
            ParseFileNameAndDownloadUrl(platform, url).Some? ==>
              var (fileName, link) := ParseFileNameAndDownloadUrl(platform, url).value;
              var x := DownloadAndExtract(env, platform, MakeDir(env, w, JdksDir(env)), link, fileName, JdksDir(env));
              && r.world == x.world
              && (x.Extracted? && (Contains(vendor, "graalvm") ==>
                    platform.spawn(NativeImageCommand(env, JdkHomeBelow(env, x.world, x.root))).Some?)
                  ==> r.outcome == Home(JdkHomeBelow(env, x.world, x.root)))
  {
    var os := OsOf(env.osName);
    var arch := ArchOf(env.osArch);
    match ParseFileNameAndDownloadUrl(platform, QueryUrl(vendor, version, os, arch))
    case None => ServiceResult(NoPackage, w)
    case Some((fileName, link)) =>
      var dir := JdksDir(env);
      var w0 := MakeDir(env, w, dir);
      match DownloadAndExtract(env, platform, w0, link, fileName, dir)
      case ExtractionFailed(w1) => ServiceResult(Failed, w1)
      case Extracted(root, w1, _) =>
        var home := JdkHomeBelow(env, w1, root);
        if Contains(vendor, "graalvm") && platform.spawn(NativeImageCommand(env, home)).None? then ServiceResult(Failed, w1)
        else ServiceResult(Home(home), w1)
  }
}

=== FILE: jbang.dfy ===
/** The local provider that asks the JBang launcher to install a JDK (`JBangHelper`). */
module JBang {
  import opened Optional
  import opened Text
  import opened Paths
  import opened Machine

  /**
   * `resolveVersion`: the major version JBang installs under. A version
   * without a dot is kept, a legacy `1.x` version becomes `8`, any other
   * version keeps what precedes its first dot.
   */
  function ResolveVersion(version: string): (major: string)
    ensures '.' !in major
    ensures '.' !in version ==> major == version
    ensures StartsWith(version, "1.") ==> major == "8"
    ensures '.' in version && !StartsWith(version, "1.") ==> StartsWith(version, major + ".")
  {
    if '.' in version then
      if StartsWith(version, "1.") then "8"
      else
        var i := IndexOf(version, '.');
        assert version[..i + 1] == version[..i] + ".";
        version[..i]
    else
      DotlessIsNotLegacy(version);
      version
  }

  lemma DotlessIsNotLegacy(version: string)
    requires '.' !in version
    ensures !StartsWith(version, "1.")
  {
    if |version| >= 2 {
      assert version[..2][1] == version[1] && version[1] in version;
    }
  }

  /** The major version is a fixed point: normalising twice is normalising once. */
  lemma ResolveVersionIdempotent(version: string)
    ensures ResolveVersion(ResolveVersion(version)) == ResolveVersion(version)
  {
  }

  /** The examples the plugin's tests use. */
  lemma ResolveVersionExamples()
    ensures ResolveVersion("17") == "17"
    ensures ResolveVersion("1.8") == "8"
    ensures ResolveVersion("17.0.1") == "17"
    ensures ResolveVersion("21.0.2+13") == "21"
  {
    assert StartsWith("1.8", "1.") by { assert "1.8"[..2] == "1."; }
    assert !StartsWith("17.0.1", "1.") by { assert "17.0.1"[..2][1] == '7'; }
    assert IndexOf("17.0.1", '.') == 2;
    assert !StartsWith("21.0.2+13", "1.") by { assert "21.0.2+13"[..2][0] == '2'; }
    assert IndexOf("21.0.2+13", '.') == 2;
  }

  /** `~/.jbang` */
  function JBangHome(env: Env): Path {
    Child(UserHome(env), ".jbang")
  }

  /** `~/.jbang/cache/jdks/<major>` */
  function InstallDir(env: Env, version: string): Path {
    Resolve(Child(Child(JBangHome(env), "cache"), "jdks"), ResolveVersion(version))
  }

  /** `~/.jbang/bin/jbang.cmd` when `os.name` mentions Windows, `~/.jbang/bin/jbang` otherwise. */
  function Launcher(env: Env): (p: Path)
    ensures LastName(p) == (if Contains(ToLower(env.osName), "windows") then "jbang.cmd" else "jbang")
    ensures p == Child(Child(JBangHome(env), "bin"), LastName(p))
  {
    var name := if Contains(ToLower(env.osName), "windows") then "jbang.cmd" else "jbang";
    Child(Child(JBangHome(env), "bin"), name)
  }

  /** `<launcher> jdk install <major>` */
  function InstallCommand(env: Env, version: string): Command {
    Command([Render(Abs(env.cwd, Launcher(env))), "jdk", "install", ResolveVersion(version)], [])
  }

  /**
   * `getJdkFromJbang`. An existing install directory is not reused: the result
   * is null. Otherwise, with the launcher present, the install process is run
   * and waited for (its exit code ignored) and the install directory is
   * registered with the original version. A missing launcher, a process that
   * throws and a failing registration all give null. A null version makes
   * `resolveVersion` throw outside any `try`, so that exception escapes.
   */
  function GetJdkFromJbang(env: Env, platform: Platform, w: World, version: Option<string>, vendor: string)
    : (a: Answer<World>)
    ensures version.None? <==> a.reply.Escaped?
    ensures version.None? ==> a.world == w
    ensures a.world.archives == w.archives
    ensures version.Some? && OnDisk(env, w, InstallDir(env, version.value)) ==> a == Answer(NotFound, w)
    ensures version.Some? && !OnDisk(env, w, Launcher(env)) ==> a == Answer(NotFound, w)
    ensures version.Some? && platform.spawn(InstallCommand(env, version.value)).None? ==> a == Answer(NotFound, w)
    ensures version.Some? && !OnDisk(env, w, InstallDir(env, version.value)) && OnDisk(env, w, Launcher(env))
              && platform.spawn(InstallCommand(env, version.value)).Some?
            ==> a == Register(env, w.(fs := w.fs + platform.spawn(InstallCommand(env, version.value)).value),
                              InstallDir(env, version.value), version, vendor)
  {
    match version
    case None => Answer(Escaped("NullPointerException"), w)
    case Some(v) =>
      var jdkHome := InstallDir(env, v);
      if OnDisk(env, w, jdkHome) then Answer(NotFound, w)
      else if !OnDisk(env, w, Launcher(env)) then Answer(NotFound, w)
      else
        match platform.spawn(InstallCommand(env, v))
        case None => Answer(NotFound, w)
        case Some(created) => Register(env, w.(fs := w.fs + created), jdkHome, version, vendor)
  }

  /** When the launcher does install, the registered JDK keeps the full version while the directory uses the major one. */
  lemma RegistersOriginalVersion(env: Env, platform: Platform, w: World, version: string, vendor: string)
    ensures GetJdkFromJbang(env, platform, w, Some(version), vendor).reply.Found? ==>
            var t := GetJdkFromJbang(env, platform, w, Some(version), vendor).reply.toolchain;
            && ToolchainXml.Describe(t)
               == Some(ToolchainXml.Entry("jdk", version, vendor, Render(Abs(env.cwd, InstallDir(env, version)))))
  {
  }
}

=== FILE: machine.dfy ===
/**
 * What the providers see of the machine they run on: the system properties
 * they read, the filesystem and registry they change, and the network and
 * child processes they call out to (as abstract functions).
 */
module Machine {
  import opened Optional
  import opened Paths
  import opened ToolchainXml

  /** The system properties read: `user.home`, the working directory, `os.name`, `os.arch`, `jdk.home`. */
  datatype Env = Env(userHome: string, cwd: seq<string>, osName: string, osArch: string, jdkHomeProperty: Option<string>)

  /** The format an archive's bytes are really in. */
  datatype ArchiveFormat = TarGz | Zip

  /** A downloaded archive: its format and its entry names in stream order. */
  datatype Archive = Archive(format: ArchiveFormat, entries: seq<string>)

  /**
   * The state the providers change: the filesystem (absolute paths, see
   * `Paths.Exists`), the contents of the archive files on it, and the registry.
   */
  datatype World = World(fs: set<Path>, archives: map<Path, Archive>, registry: Registry)

  /** A child process: its argument vector and the variables added to its environment. */
  datatype Command = Command(argv: seq<string>, environment: seq<(string, string)>)

  /**
   * The fields read from a package-index JSON reply; a field is `None` when
   * reading it throws (missing `result` entry, missing key, wrong shape).
   */
  datatype Body = Body(pkgInfoUri: Option<string>, filename: Option<string>, directDownloadUri: Option<string>)

  datatype HttpReply = HttpReply(code: int, body: Body)

  /**
   * The outside world: `get` issues an HTTP GET (`None` when it throws),
   * `fetch` downloads a file (`None` when it throws), `spawn` starts a process
   * and, for a process that is waited for, gives the paths it created
   * (`None` when starting or waiting throws).
   */
  datatype Platform = Platform(
    get: string -> Option<HttpReply>,
    fetch: string -> Option<Archive>,
    spawn: Command -> Option<set<Path>>)

  /**
   * What a provider hands back: a toolchain, null, or an exception that
   * escapes it (only a null version reaching JBang's `resolveVersion` does).
   */
  datatype Reply = Found(toolchain: JavaToolchain) | NotFound | Escaped(reason: string)

  datatype Answer<W> = Answer(reply: Reply, world: W)

  /** `Paths.get(System.getProperty("user.home"))` */
  function UserHome(env: Env): Path {
    Parse(env.userHome)
  }

  /** `~/.m2`, the directory holding `toolchains.xml`. */
  function RegistryDir(env: Env): Path {
    Child(UserHome(env), ".m2")
  }

  /** `p.toFile().exists()`: a relative path is looked up from the working directory. */
  predicate OnDisk(env: Env, w: World, p: Path) {
    Exists(w.fs, Abs(env.cwd, p))
  }

  /**
   * `return addJDKToToolchains(home, version, vendor)` inside a provider's
   * `try`: the registered toolchain, or null when registration throws. The
   * write needs `~/.m2` to exist on the filesystem at that moment.
   */
  function Register(env: Env, w: World, home: Path, version: Option<string>, vendor: string): (a: Answer<World>)
    ensures a.world.fs == w.fs && a.world.archives == w.archives
    ensures !a.reply.Escaped?
    ensures a.reply.Found? <==> AddJdkToToolchains(w.registry, OnDisk(env, w, RegistryDir(env)), env.cwd, home, version, vendor).Some?
    ensures a.reply.Found? ==> OnDisk(env, w, RegistryDir(env))
    ensures !a.reply.Found? ==> a == Answer(NotFound, w)
    ensures a.reply.Found? ==>
              && a.reply.toolchain.javaHome == Render(Abs(env.cwd, home))
              && Describe(a.reply.toolchain) == Some(Entry("jdk", version.value, vendor, a.reply.toolchain.javaHome))
              && Extends(w.registry, a.world.registry)
              && |Records(a.world.registry)| == |Records(w.registry)| + 1
              && Records(w.registry) <= Records(a.world.registry)
              && ReadRecord(Records(a.world.registry)[|Records(w.registry)|]) == Describe(a.reply.toolchain)
  {
    var dirExists := OnDisk(env, w, RegistryDir(env));
    match AddJdkToToolchains(w.registry, dirExists, env.cwd, home, version, vendor)
    case None => Answer(NotFound, w)
    case Some((t, reg)) =>
      RegistrationAppendsOneRecord(w.registry, dirExists, env.cwd, home, version, vendor);
      Answer(Found(t), w.(registry := reg))
  }
}

=== FILE: mojo.dfy ===
/**
 * The `install` goal (`ToolchainInstallerMojo`): for every required toolchain,
 * use a matching one Maven already knows or, for a JDK, obtain one from the
 * provider chain (SDKMAN!, then JBang, then Foojay); fail with one message
 * naming every requirement left unresolved.
 *
 * The orchestrator is generic: `W` is whatever the providers change and `E`
 * is Maven's toolchain type, known only through its type, the
 * `matchesRequirements` test and the lookup that lists the available ones.
 */
module ToolchainInstaller {
  import opened Optional
  import opened Text
  import opened ToolchainXml
  import opened Machine

  const JdkType := "jdk"
  const TestJdkType := "testJdk"
  const DefaultVendor := "oracle_open_jdk"
  const Misconfigured := "Misconfigured toolchains"
  const Header := "Cannot find matching toolchain definitions for the following toolchain types:"
  const Hint := "Please make sure you define the required toolchains in your ~/.m2/toolchains.xml file"

  /** A requirement's parameters, in their iteration order. */
  type Params = seq<(string, string)>

  /** One entry of the `toolchains` configuration: a toolchain type and its parameters. */
  datatype Requirement = Requirement(kind: string, params: Params)

  /** `Boolean.parseBoolean`: true exactly for `true` in any case. */
  function ParseBoolean(s: string): (b: bool)
    ensures b <==> ToLower(s) == "true"
    ensures b ==> |s| == 4
  {
    assert ToLower("true") == "true";
    EqualsIgnoreCase(s, "true")
  }

  /** `shouldSkipExecution`: the `toolchain.installer.skip` system property, when set, overrides the `skip` parameter. */
  function ShouldSkip(property: Option<string>, configured: bool): (skip: bool)
    ensures property.None? ==> skip == configured
    ensures property.Some? ==> (skip <==> ToLower(property.value) == "true")
  {
    match property
    case Some(p) => ParseBoolean(p)
    case None => configured
  }

  /**
   * Without the property the `skip` parameter decides; with it, the parameter
   * is ignored and exactly the values `true` in any case skip.
   */
  lemma SkipPrecedence(configured: bool)
    ensures ShouldSkip(None, configured) == configured
    ensures forall p: string, c: bool :: ShouldSkip(Some(p), c) == ParseBoolean(p)
    ensures forall p: string :: ParseBoolean(p) <==> ToLower(p) == "true"
    ensures ShouldSkip(Some("TRUE"), false) && ShouldSkip(Some("true"), false)
    ensures !ShouldSkip(Some("false"), true) && !ShouldSkip(Some("yes"), true)
  {
    assert ToLower("TRUE") == "true";
    assert ToLower("yes")[0] == 'y';
  }

  /** `Map.get` on a requirement's parameters: the value of the first entry with the key. */
  function Get(params: Params, key: string): (r: Option<string>)
    ensures r.None? <==> forall i :: 0 <= i < |params| ==> params[i].0 != key
    ensures r.Some? ==> exists i :: 0 <= i < |params| && params[i] == (key, r.value)
                                    && forall j :: 0 <= j < i ==> params[j].0 != key
  {
    if |params| == 0 then None
    else if params[0].0 == key then Some(params[0].1)
    else
      var r := Get(params[1..], key);
      assert forall j :: 1 <= j < |params| ==> params[j] == params[1..][j - 1];
      r
  }

  /** A `testJdk` requirement is looked up and stored as a `jdk` one. */
  function NormalizeKind(kind: string): (k: string)
    ensures k == JdkType <==> kind == JdkType || kind == TestJdkType
    ensures kind != TestJdkType ==> k == kind
  {
    if kind == TestJdkType then JdkType else kind
  }

  /** An absent or empty vendor means the default one. */
  function ResolveVendor(vendor: Option<string>): (v: string)
    ensures v != ""
    ensures vendor.Some? && vendor.value != "" ==> v == vendor.value
    ensures vendor.None? || vendor == Some("") ==> v == DefaultVendor
  {
    match vendor
    case Some(v) => if v == "" then DefaultVendor else v
    case None => DefaultVendor
  }

  /** The local providers are tried only for the default vendor, in any case. */
  predicate TriesLocalProviders(vendor: string) {
    EqualsIgnoreCase(vendor, DefaultVendor)
  }

  datatype Provider = SdkmanProvider | JBangProvider | FoojayProvider

  /** The providers as functions of the version and vendor asked for. */
  datatype Providers<!W> = Providers(
    sdkman: (W, Option<string>) -> Answer<W>,
    jbang: (W, Option<string>, string) -> Answer<W>,
    foojay: (W, Option<string>, string) -> Answer<W>)

  function Call<W>(p: Providers<W>, which: Provider, w: W, version: Option<string>, vendor: string): Answer<W> {
    match which
    case SdkmanProvider => p.sdkman(w, version)
    case JBangProvider => p.jbang(w, version, vendor)
    case FoojayProvider => p.foojay(w, version, vendor)
  }

  /** The providers consulted for a vendor, in the order they are consulted. */
  function Order(vendor: string): (order: seq<Provider>)
    ensures |order| >= 1 && order[|order| - 1] == FoojayProvider
    ensures SdkmanProvider in order <==> TriesLocalProviders(vendor)
    ensures JBangProvider in order <==> TriesLocalProviders(vendor)
    ensures TriesLocalProviders(vendor) ==> order == [SdkmanProvider, JBangProvider, FoojayProvider]
    ensures !TriesLocalProviders(vendor) ==> order == [FoojayProvider]
  {
    if TriesLocalProviders(vendor) then [SdkmanProvider, JBangProvider, FoojayProvider] else [FoojayProvider]
  }

  /** The chain's reply, what it left of the world, and the providers it called, in order. */
  datatype ChainResult<W> = ChainResult(reply: Reply, world: W, calls: seq<Provider>)

  /**
   * Consult the providers of `order` one after the other, stopping at the
   * first that does not return null: a toolchain ends the chain, and so does
   * an exception, which escapes it.
   */
  function Attempt<W>(p: Providers<W>, order: seq<Provider>, w: W, version: Option<string>, vendor: string)
    : (r: ChainResult<W>)
    ensures r.calls <= order
    ensures r.reply.NotFound? ==> r.calls == order
    ensures r.calls == order || !r.reply.NotFound?
    ensures order == [] ==> r == ChainResult(NotFound, w, [])
    ensures order != [] ==> r.calls != [] && r.calls[0] == order[0]
    ensures order != [] && !Call(p, order[0], w, version, vendor).reply.NotFound? ==>
              r == ChainResult(Call(p, order[0], w, version, vendor).reply, Call(p, order[0], w, version, vendor).world, [order[0]])
    ensures |order| == 1 ==>
              r == ChainResult(Call(p, order[0], w, version, vendor).reply, Call(p, order[0], w, version, vendor).world, order)
    decreases |order|
  {
    if order == [] then ChainResult(NotFound, w, [])
    else
      var a := Call(p, order[0], w, version, vendor);
      if a.reply.NotFound? then
        var rest := Attempt(p, order[1..], a.world, version, vendor);
        assert order == [order[0]] + order[1..];
        ChainResult(rest.reply, rest.world, [order[0]] + rest.calls)
      else ChainResult(a.reply, a.world, [order[0]])
  }

  /**
   * Running the providers of `a` and then those of `b` is running `a`, and
   * then, only when all of `a` answered null, `b` on the world `a` left.
   */
  lemma {:induction false} AttemptAppend<W>(p: Providers<W>, a: seq<Provider>, b: seq<Provider>, w: W,
                                            version: Option<string>, vendor: string)
    ensures var ra := Attempt(p, a, w, version, vendor);
            var rb := Attempt(p, b, ra.world, version, vendor);
            Attempt(p, a + b, w, version, vendor)
              == if ra.reply.NotFound? then ChainResult(rb.reply, rb.world, ra.calls + rb.calls) else ra
    decreases |a|
  {
    if a == [] {
      assert a + b == b;
    } else {
      var x := Call(p, a[0], w, version, vendor);
      assert (a + b)[0] == a[0];
      assert (a + b)[1..] == a[1..] + b;
      if x.reply.NotFound? {
        AttemptAppend(p, a[1..], b, x.world, version, vendor);
      }
    }
  }

  /**
   * The chain's reply is the first non-null answer: when every provider before
   * position `k` answered null and the one at `k` does not, the chain returns
   * that answer, the world it left, and the calls up to and including `k`.
   */
  lemma ChainStopsAtFirstAnswer<W>(p: Providers<W>, order: seq<Provider>, k: nat, w: W,
                                   version: Option<string>, vendor: string)
    requires k < |order|
    requires Attempt(p, order[..k], w, version, vendor).reply.NotFound?
    requires !Call(p, order[k], Attempt(p, order[..k], w, version, vendor).world, version, vendor).reply.NotFound?
    ensures var x := Call(p, order[k], Attempt(p, order[..k], w, version, vendor).world, version, vendor);
            Attempt(p, order, w, version, vendor) == ChainResult(x.reply, x.world, order[..k + 1])
  {
    var before := Attempt(p, order[..k], w, version, vendor);
    assert order[..k + 1] == order[..k] + [order[k]];
    assert order == order[..k + 1] + order[k + 1..];
    AttemptAppend(p, order[..k], [order[k]], w, version, vendor);
    AttemptAppend(p, order[..k + 1], order[k + 1..], w, version, vendor);
    assert before.calls == order[..k];
  }

  /**
   * The default vendor's chain: SDKMAN! first; JBang, on the world SDKMAN!
   * left, only when SDKMAN! answered null; Foojay only when both did.
   */
  lemma LocalChain<W>(p: Providers<W>, w: W, version: Option<string>, vendor: string)
    requires TriesLocalProviders(vendor)
    ensures var s := p.sdkman(w, version);
            var j := p.jbang(s.world, version, vendor);
            var f := p.foojay(j.world, version, vendor);
            var r := Attempt(p, Order(vendor), w, version, vendor);
            && (!s.reply.NotFound? ==> r == ChainResult(s.reply, s.world, [SdkmanProvider]))
            && (s.reply.NotFound? && !j.reply.NotFound? ==> r == ChainResult(j.reply, j.world, [SdkmanProvider, JBangProvider]))
            && (s.reply.NotFound? && j.reply.NotFound? ==> r == ChainResult(f.reply, f.world, Order(vendor)))
  {
    var order := Order(vendor);
    AttemptAppend(p, [SdkmanProvider], [JBangProvider, FoojayProvider], w, version, vendor);
    AttemptAppend(p, [JBangProvider], [FoojayProvider], p.sdkman(w, version).world, version, vendor);
    assert order == [SdkmanProvider] + [JBangProvider, FoojayProvider];
    assert [JBangProvider, FoojayProvider] == [JBangProvider] + [FoojayProvider];
  }

  /** Any other vendor's chain is Foojay alone. */
  lemma RemoteChain<W>(p: Providers<W>, w: W, version: Option<string>, vendor: string)
    requires !TriesLocalProviders(vendor)
    ensures var f := p.foojay(w, version, vendor);
            Attempt(p, Order(vendor), w, version, vendor) == ChainResult(f.reply, f.world, [FoojayProvider])
  {
  }

  /** `session.getRequest().getToolchains()`: toolchain models by type. */
  type RequestToolchains = map<string, seq<ToolchainModel>>

  /** The models listed under `jdk`, none when there is no such list. */
  function JdkList(request: RequestToolchains): seq<ToolchainModel> {
    if JdkType in request then request[JdkType] else []
  }

  /** `addToRequestToolchains`: append the model to the `jdk` list, creating the list when it is missing. */
  function AddToRequest(request: RequestToolchains, model: ToolchainModel): (r: RequestToolchains)
    ensures r.Keys == request.Keys + {JdkType}
    ensures JdkList(r) == JdkList(request) + [model]
    ensures forall k :: k in request && k != JdkType ==> r[k] == request[k]
  {
    request[JdkType := JdkList(request) + [model]]
  }

  /** A toolchain handed to the build: one Maven already knew, or one a provider installed. */
  datatype Selected<E> = Existing(existing: E) | Installed(installed: JavaToolchain)

  /**
   * What the goal works with: the providers, the toolchain manager's
   * `getToolchainsForType` (`None` when it throws `MisconfiguredToolchainException`),
   * a toolchain's type, `matchesRequirements`, and `System.lineSeparator()`.
   */
  datatype Context<!W, !E> = Context(
    providers: Providers<W>,
    toolchainsForType: (RequestToolchains, string) -> Option<seq<E>>,
    typeOf: E -> string,
    matches: (E, Params) -> bool,
    lineSeparator: string)

  /**
   * The state a run threads through the requirements: the providers' world,
   * the request's toolchains, the toolchains stored to the build context,
   * and the providers called so far.
   */
  datatype State<W, E> = State(world: W, request: RequestToolchains, buildContext: seq<Selected<E>>, calls: seq<Provider>)

  /** An available toolchain serves a requirement when its type is equal and it matches the parameters. */
  predicate Qualifies<W, E>(ctx: Context<W, E>, e: E, kind: string, params: Params) {
    ctx.typeOf(e) == kind && ctx.matches(e, params)
  }

  /** `getToolchain`'s stream: the first available toolchain that qualifies. */
  function FirstMatch<W, E>(ctx: Context<W, E>, available: seq<E>, kind: string, params: Params): (r: Option<nat>)
    ensures r.None? <==> forall i :: 0 <= i < |available| ==> !Qualifies(ctx, available[i], kind, params)
    ensures r.Some? ==> r.value < |available| && Qualifies(ctx, available[r.value], kind, params)
                        && forall j :: 0 <= j < r.value ==> !Qualifies(ctx, available[j], kind, params)
  {
    if |available| == 0 then None
    else if Qualifies(ctx, available[0], kind, params) then Some(0)
    else
      var r := FirstMatch(ctx, available[1..], kind, params);
      assert forall j :: 1 <= j < |available| ==> available[j] == available[1..][j - 1];
      if r.None? then None else Some(r.value + 1)
  }

  /** `storeToolchainToBuildContext`, made only when the normalised type is exactly `jdk`. */
  function Store<W, E>(s: State<W, E>, kind: string, t: Selected<E>): (r: State<W, E>)
    ensures r.world == s.world && r.request == s.request && r.calls == s.calls
    ensures kind == JdkType ==> r.buildContext == s.buildContext + [t]
    ensures kind != JdkType ==> r == s
  {
    if kind == JdkType then s.(buildContext := s.buildContext + [t]) else s
  }

  /** `selectToolchain`'s outcome: carry on, knowing whether the requirement was met, or stop the run. */
  datatype Selection<W, E> = Proceed(state: State<W, E>, found: bool) | Halt(state: State<W, E>, reason: string)

  /** `b` is `a` with zero or more elements appended. */
  ghost predicate Extended<T>(a: seq<T>, b: seq<T>) {
    |a| <= |b| && b[..|a|] == a
  }

  /**
   * The `jdk` list grows by one model exactly when `grew`; other types' lists, the
   * stored toolchains (up to one more) and the calls made only grow.
   */
  ghost predicate Grows<W, E>(s: State<W, E>, s': State<W, E>, grew: bool) {
    && (forall k :: k in s.request && k != JdkType ==> k in s'.request && s'.request[k] == s.request[k])
    && JdkList(s.request) <= JdkList(s'.request)
    && |JdkList(s'.request)| == |JdkList(s.request)| + (if grew then 1 else 0)
    && Extended(s.buildContext, s'.buildContext)
    && |s'.buildContext| <= |s.buildContext| + 1
    && s.calls <= s'.calls
  }

  /** The chain a requirement that no known toolchain serves runs. */
  function ChainFor<W, E>(ctx: Context<W, E>, s: State<W, E>, req: Requirement): ChainResult<W> {
    var vendor := ResolveVendor(Get(req.params, "vendor"));
    Attempt(ctx.providers, Order(vendor), s.world, Get(req.params, "version"), vendor)
  }

  /**
   * `selectToolchain`. An available toolchain that qualifies is used (and
   * stored); otherwise, for a type equal to `jdk` ignoring case, the
   * provider chain runs and a toolchain it returns is added to the request
   * (and stored). A failing lookup and an exception from a provider stop the run.
   */
  function Select<W, E>(ctx: Context<W, E>, s: State<W, E>, req: Requirement): (r: Selection<W, E>)
    ensures Grows(s, r.state, r.Proceed? && r.found && r.state.request != s.request)
    ensures r.Proceed? && r.found && r.state.request != s.request ==>
              ChainFor(ctx, s, req).reply.Found? && r.state.request == AddToRequest(s.request, ChainFor(ctx, s, req).reply.toolchain.model)
    ensures r.state.buildContext != s.buildContext ==> NormalizeKind(req.kind) == JdkType && r.Proceed? && r.found
    ensures r.Proceed? && !r.found ==> r.state.request == s.request && r.state.buildContext == s.buildContext
  {
    var kind := NormalizeKind(req.kind);
    match ctx.toolchainsForType(s.request, kind)
    case None => Halt(s, Misconfigured)
    case Some(available) =>
      match FirstMatch(ctx, available, kind, req.params)
      case Some(i) => Proceed(Store(s, kind, Existing(available[i])), true)
      case None =>
        if !EqualsIgnoreCase(kind, JdkType) then Proceed(s, false)
        else
          var chain := ChainFor(ctx, s, req);
          var s1 := s.(world := chain.world, calls := s.calls + chain.calls);
          match chain.reply
          case Escaped(reason) => Halt(s1, reason)
          case NotFound => Proceed(s1, false)
          case Found(t) => Proceed(Store(s1.(request := AddToRequest(s1.request, t.model)), kind, Installed(t)), true)
  }

  /** `testJdk` is handled exactly as `jdk`. */
  lemma TestJdkIsJdk<W, E>(ctx: Context<W, E>, s: State<W, E>, params: Params)
    ensures Select(ctx, s, Requirement(TestJdkType, params)) == Select(ctx, s, Requirement(JdkType, params))
  {
  }

  /** A failing lookup stops the run with `Misconfigured toolchains`, changing nothing. */
  lemma MisconfiguredHalts<W, E>(ctx: Context<W, E>, s: State<W, E>, req: Requirement)
    requires ctx.toolchainsForType(s.request, NormalizeKind(req.kind)).None?
    ensures Select(ctx, s, req) == Halt(s, Misconfigured)
  {
  }

  /**
   * When an available toolchain qualifies, the first one is used and no
   * provider is called; it is stored when the type is `jdk`.
   */
  lemma ExistingMatchWins<W, E>(ctx: Context<W, E>, s: State<W, E>, req: Requirement, available: seq<E>, i: nat)
    requires ctx.toolchainsForType(s.request, NormalizeKind(req.kind)) == Some(available)
    requires i < |available| && Qualifies(ctx, available[i], NormalizeKind(req.kind), req.params)
    requires forall j :: 0 <= j < i ==> !Qualifies(ctx, available[j], NormalizeKind(req.kind), req.params)
    ensures Select(ctx, s, req) == Proceed(Store(s, NormalizeKind(req.kind), Existing(available[i])), true)
    ensures Select(ctx, s, req).state.world == s.world && Select(ctx, s, req).state.calls == s.calls
  {
    var r := FirstMatch(ctx, available, NormalizeKind(req.kind), req.params);
    assert r == Some(i);
  }

  /**
   * With no qualifying toolchain, a `jdk` requirement (any case) runs the
   * provider chain for its vendor: SDKMAN! and JBang only for the default
   * vendor, Foojay last; a non-`jdk` one is unmet and no provider is called.
   */
  lemma ProvidersTried<W, E>(ctx: Context<W, E>, s: State<W, E>, req: Requirement, available: seq<E>)
    requires ctx.toolchainsForType(s.request, NormalizeKind(req.kind)) == Some(available)
    requires forall j :: 0 <= j < |available| ==> !Qualifies(ctx, available[j], NormalizeKind(req.kind), req.params)
    ensures var r := Select(ctx, s, req);
            var vendor := ResolveVendor(Get(req.params, "vendor"));
            && (!EqualsIgnoreCase(NormalizeKind(req.kind), JdkType) ==> r == Proceed(s, false))
            && (EqualsIgnoreCase(NormalizeKind(req.kind), JdkType) ==>
                  && r.state.calls == s.calls + ChainFor(ctx, s, req).calls
                  && r.state.world == ChainFor(ctx, s, req).world
                  && ChainFor(ctx, s, req).calls <= Order(vendor)
                  && (!TriesLocalProviders(vendor) ==> ChainFor(ctx, s, req).calls == [FoojayProvider])
                  && (r.Halt? <==> ChainFor(ctx, s, req).reply.Escaped?)
                  && (r.Halt? ==> r.reason == ChainFor(ctx, s, req).reply.reason)
                  && (r.Proceed? ==> (r.found <==> ChainFor(ctx, s, req).reply.Found?)))
  {
  }

  /**
   * A toolchain from a provider is appended to the request's `jdk` list, and
   * is stored to the build context only when the normalised type is exactly
   * `jdk`: a `JDK` requirement gets a toolchain but stores none.
   */
  lemma InstalledIsRecorded<W, E>(ctx: Context<W, E>, s: State<W, E>, req: Requirement, available: seq<E>)
    requires ctx.toolchainsForType(s.request, NormalizeKind(req.kind)) == Some(available)
    requires forall j :: 0 <= j < |available| ==> !Qualifies(ctx, available[j], NormalizeKind(req.kind), req.params)
    requires EqualsIgnoreCase(NormalizeKind(req.kind), JdkType)
    requires ChainFor(ctx, s, req).reply.Found?
    ensures var r := Select(ctx, s, req);
            var t := ChainFor(ctx, s, req).reply.toolchain;
            && r.Proceed? && r.found
            && r.state.request == AddToRequest(s.request, t.model)
            && (NormalizeKind(req.kind) == JdkType ==> r.state.buildContext == s.buildContext + [Installed(t)])
            && (NormalizeKind(req.kind) != JdkType ==> r.state.buildContext == s.buildContext)
  {
  }

  /** The outcome of processing every requirement: whether each was met, or the reason the run stopped. */
  datatype Run<W, E> = Done(state: State<W, E>, resolved: seq<bool>) | Halted(state: State<W, E>, reason: string)

  /** The loop of `execute`: select a toolchain for each requirement in turn. */
  function ProcessAll<W, E>(ctx: Context<W, E>, s: State<W, E>, reqs: seq<Requirement>): (r: Run<W, E>)
    ensures r.Done? ==> |r.resolved| == |reqs|
    ensures r.Done? && reqs != [] ==> Select(ctx, s, reqs[0]).Proceed? && r.resolved[0] == Select(ctx, s, reqs[0]).found
    ensures s.calls <= r.state.calls && Extended(s.buildContext, r.state.buildContext)
    ensures JdkList(s.request) <= JdkList(r.state.request)
    ensures |r.state.buildContext| <= |s.buildContext| + |reqs|
    decreases |reqs|
  {
    if reqs == [] then Done(s, [])
    else
      match Select(ctx, s, reqs[0])
      case Halt(s1, reason) => Halted(s1, reason)
      case Proceed(s1, found) =>
        match ProcessAll(ctx, s1, reqs[1..])
        case Halted(s2, reason) => Halted(s2, reason)
        case Done(s2, rest) => Done(s2, [found] + rest)
  }

  /** The run over the first `i` requirements gets to requirement `i`, and there the selection stops it. */
  predicate HaltsAt<W, E>(ctx: Context<W, E>, s: State<W, E>, reqs: seq<Requirement>, i: nat)
    requires i < |reqs|
  {
    ProcessAll(ctx, s, reqs[..i]).Done? && Select(ctx, ProcessAll(ctx, s, reqs[..i]).state, reqs[i]).Halt?
  }

  /** Past the first requirement, a run over a prefix is the run over the rest's prefix from the state the first left. */
  lemma PrefixAfterFirst<W, E>(ctx: Context<W, E>, s: State<W, E>, reqs: seq<Requirement>, i: nat)
    requires 1 <= i <= |reqs|
    ensures Select(ctx, s, reqs[0]).Halt? ==>
              ProcessAll(ctx, s, reqs[..i]) == Halted(Select(ctx, s, reqs[0]).state, Select(ctx, s, reqs[0]).reason)
    ensures Select(ctx, s, reqs[0]).Proceed? ==>
              var rest := ProcessAll(ctx, Select(ctx, s, reqs[0]).state, reqs[1..][..i - 1]);
              && (ProcessAll(ctx, s, reqs[..i]).Done? <==> rest.Done?)
              && ProcessAll(ctx, s, reqs[..i]).state == rest.state
  {
    assert reqs[..i][0] == reqs[0];
    assert reqs[..i][1..] == reqs[1..][..i - 1];
  }

  /** After a first selection that carries on, the run's step `i` is the rest's step `i - 1`. */
  lemma StepShift<W, E>(ctx: Context<W, E>, s: State<W, E>, reqs: seq<Requirement>, i: nat)
    requires 1 <= i < |reqs| && Select(ctx, s, reqs[0]).Proceed?
    ensures var tail := reqs[1..];
            var s1 := Select(ctx, s, reqs[0]).state;
            && (ProcessAll(ctx, s, reqs[..i]).Done? <==> ProcessAll(ctx, s1, tail[..i - 1]).Done?)
            && Select(ctx, ProcessAll(ctx, s, reqs[..i]).state, reqs[i]) == Select(ctx, ProcessAll(ctx, s1, tail[..i - 1]).state, tail[i - 1])
            && (HaltsAt(ctx, s, reqs, i) <==> HaltsAt(ctx, s1, tail, i - 1))
  {
    PrefixAfterFirst(ctx, s, reqs, i);
    assert reqs[1..][i - 1] == reqs[i];
  }

  /**
   * A run stops exactly when the selection for some requirement, reached
   * with every earlier one carried on, stops it.
   */
  lemma {:induction false} ProcessAllHalts<W, E>(ctx: Context<W, E>, s: State<W, E>, reqs: seq<Requirement>)
    ensures ProcessAll(ctx, s, reqs).Halted? <==> exists i | 0 <= i < |reqs| :: HaltsAt(ctx, s, reqs, i)
    decreases |reqs|
  {
    if reqs != [] {
      var sel := Select(ctx, s, reqs[0]);
      assert HaltsAt(ctx, s, reqs, 0) <==> sel.Halt? by {
        assert reqs[..0] == [];
      }
      if sel.Proceed? {
        var tail := reqs[1..];
        assert ProcessAll(ctx, s, reqs).Halted? <==> exists j | 0 <= j < |tail| :: HaltsAt(ctx, sel.state, tail, j) by {
          ProcessAllHalts(ctx, sel.state, tail);
        }
        forall i | 1 <= i < |reqs|
          ensures HaltsAt(ctx, s, reqs, i) <==> HaltsAt(ctx, sel.state, tail, i - 1)
        {
          StepShift(ctx, s, reqs, i);
        }
        if exists j | 0 <= j < |tail| :: HaltsAt(ctx, sel.state, tail, j) {
          var j :| 0 <= j < |tail| && HaltsAt(ctx, sel.state, tail, j);
          assert HaltsAt(ctx, s, reqs, j + 1);
        }
      }
    }
  }

  /** A run that some selection stops ends there, with that selection's state and reason. */
  lemma {:induction false} ProcessAllHaltsThere<W, E>(ctx: Context<W, E>, s: State<W, E>, reqs: seq<Requirement>, i: nat)
    requires i < |reqs| && HaltsAt(ctx, s, reqs, i)
    ensures var sel := Select(ctx, ProcessAll(ctx, s, reqs[..i]).state, reqs[i]);
            ProcessAll(ctx, s, reqs) == Halted(sel.state, sel.reason)
    decreases |reqs|
  {
    var sel := Select(ctx, s, reqs[0]);
    if i == 0 {
      assert reqs[..0] == [];
    } else if sel.Halt? {
      PrefixAfterFirst(ctx, s, reqs, i);
    } else {
      StepShift(ctx, s, reqs, i);
      ProcessAllHaltsThere(ctx, sel.state, reqs[1..], i - 1);
    }
  }

  /** A run that finishes records for each requirement whether the selection made after the earlier ones met it. */
  lemma {:induction false} ProcessAllResolved<W, E>(ctx: Context<W, E>, s: State<W, E>, reqs: seq<Requirement>)
    ensures ProcessAll(ctx, s, reqs).Done? ==> forall i | 0 <= i < |reqs| ::
              && ProcessAll(ctx, s, reqs[..i]).Done?
              && Select(ctx, ProcessAll(ctx, s, reqs[..i]).state, reqs[i]).Proceed?
              && ProcessAll(ctx, s, reqs).resolved[i] == Select(ctx, ProcessAll(ctx, s, reqs[..i]).state, reqs[i]).found
    decreases |reqs|
  {
    if reqs != [] && ProcessAll(ctx, s, reqs).Done? {
      var sel := Select(ctx, s, reqs[0]);
      var tail := reqs[1..];
      assert reqs[..0] == [];
      ProcessAllResolved(ctx, sel.state, tail);
      var rest := ProcessAll(ctx, sel.state, tail);
      assert ProcessAll(ctx, s, reqs).resolved == [sel.found] + rest.resolved;
      forall i | 1 <= i < |reqs|
        ensures ProcessAll(ctx, s, reqs[..i]).Done?
        ensures Select(ctx, ProcessAll(ctx, s, reqs[..i]).state, reqs[i]).Proceed?
        ensures ProcessAll(ctx, s, reqs).resolved[i] == Select(ctx, ProcessAll(ctx, s, reqs[..i]).state, reqs[i]).found
      {
        StepShift(ctx, s, reqs, i);
      }
    }
  }

  /** Every requirement is served by a toolchain the manager lists for `request`. */
  ghost predicate AllKnown<W, E>(ctx: Context<W, E>, request: RequestToolchains, reqs: seq<Requirement>) {
    forall i :: 0 <= i < |reqs| ==>
      && ctx.toolchainsForType(request, NormalizeKind(reqs[i].kind)).Some?
      && FirstMatch(ctx, ctx.toolchainsForType(request, NormalizeKind(reqs[i].kind)).value,
                    NormalizeKind(reqs[i].kind), reqs[i].params).Some?
  }

  /**
   * When Maven already knows a qualifying toolchain for every requirement,
   * every one is met, no provider is called, and neither the world nor the
   * request changes: running the goal again after a successful run installs
   * nothing more.
   */
  lemma {:induction false} KnownToolchainsNeedNoProvider<W, E>(ctx: Context<W, E>, s: State<W, E>, reqs: seq<Requirement>)
    requires AllKnown(ctx, s.request, reqs)
    ensures ProcessAll(ctx, s, reqs).Done?
    ensures forall i :: 0 <= i < |reqs| ==> ProcessAll(ctx, s, reqs).resolved[i]
    ensures var s' := ProcessAll(ctx, s, reqs).state;
            s'.world == s.world && s'.calls == s.calls && s'.request == s.request
    decreases |reqs|
  {
    if reqs != [] {
      var sel := Select(ctx, s, reqs[0]);
      assert sel.Proceed? && sel.found && sel.state.world == s.world && sel.state.calls == s.calls && sel.state.request == s.request by {
        assert AllKnown(ctx, s.request, reqs) ==> ctx.toolchainsForType(s.request, NormalizeKind(reqs[0].kind)).Some?;
      }
      assert forall i :: 0 <= i < |reqs[1..]| ==> reqs[1..][i] == reqs[i + 1];
      KnownToolchainsNeedNoProvider(ctx, sel.state, reqs[1..]);
      var rest := ProcessAll(ctx, sel.state, reqs[1..]);
      assert ProcessAll(ctx, s, reqs).resolved == [true] + rest.resolved;
    }
  }

  /** `getToolchainRequirementAsString`: `type [ k = 'v' ... ]`, or `type [ any ]` without parameters. */
  function FormatRequirement(kind: string, params: Params): (line: string)
    ensures StartsWith(line, kind + " [") && EndsWith(line, " ]")
    ensures params == [] ==> line == kind + " [ any ]"
    ensures params != [] ==> line == kind + " [" + FormatParams(params) + " ]"
  {
    var line := kind + " [" + (if params == [] then " any" else FormatParams(params)) + " ]";
    assert line[..|kind + " ["|] == kind + " [";
    line
  }

  /** One ` key = 'value'` piece per parameter. */
  function Piece(kv: (string, string)): string {
    " " + kv.0 + " = '" + kv.1 + "'"
  }

  function FormatParams(params: Params): string {
    if params == [] then "" else Piece(params[0]) + FormatParams(params[1..])
  }

  /** The pieces of `a + b` are those of `a` followed by those of `b`: one piece per parameter, in iteration order. */
  lemma {:induction false} FormatParamsAppend(a: Params, b: Params)
    ensures FormatParams(a + b) == FormatParams(a) + FormatParams(b)
    ensures |a| == 1 ==> FormatParams(a) == Piece(a[0])
    decreases |a|
  {
    if a == [] {
      assert a + b == b;
    } else {
      assert (a + b)[0] == a[0];
      assert (a + b)[1..] == a[1..] + b;
      FormatParamsAppend(a[1..], b);
      if |a| == 1 {
        assert a[1..] == [];
      }
    }
  }

  lemma {:induction false} FormatParamsContains(params: Params, i: nat)
    requires i < |params|
    ensures Contains(FormatParams(params), Piece(params[i]))
    decreases |params|
  {
    var rest := FormatParams(params[1..]);
    if i == 0 {
      ContainsInside("", Piece(params[0]), rest);
      assert "" + Piece(params[0]) + rest == FormatParams(params);
    } else {
      assert params[1..][i - 1] == params[i];
      FormatParamsContains(params[1..], i - 1);
      ContainsWiden(rest, Piece(params[i]), Piece(params[0]), "");
      assert Piece(params[0]) + rest + "" == FormatParams(params);
    }
  }

  /** Every parameter of a requirement appears in its line as ` key = 'value'`. */
  lemma FormatShowsParams(kind: string, params: Params)
    ensures forall i :: 0 <= i < |params| ==> Contains(FormatRequirement(kind, params), " " + params[i].0 + " = '" + params[i].1 + "'")
  {
    forall i | 0 <= i < |params|
      ensures Contains(FormatRequirement(kind, params), Piece(params[i]))
    {
      FormatParamsContains(params, i);
      ContainsWiden(FormatParams(params), Piece(params[i]), kind + " [", " ]");
    }
  }

  /** `toolchains.getParams(type)`: the parameters of the first requirement of that type. */
  function ParamsOf(reqs: seq<Requirement>, kind: string): Params {
    if reqs == [] then [] else if reqs[0].kind == kind then reqs[0].params else ParamsOf(reqs[1..], kind)
  }

  /** The requirements' types are distinct, as the keys of a map are. */
  predicate DistinctKinds(reqs: seq<Requirement>) {
    forall i, j :: 0 <= i < j < |reqs| ==> reqs[i].kind != reqs[j].kind
  }

  lemma {:induction false} ParamsOfOwn(reqs: seq<Requirement>, i: nat)
    requires DistinctKinds(reqs) && i < |reqs|
    ensures ParamsOf(reqs, reqs[i].kind) == reqs[i].params
    decreases |reqs|
  {
    if i > 0 {
      assert reqs[0].kind != reqs[i].kind;
      assert reqs[1..][i - 1] == reqs[i];
      ParamsOfOwn(reqs[1..], i - 1);
    }
  }

  /** The positions of the unmet requirements, increasing: each is unmet and every unmet one is listed. */
  function UnmetPositions(resolved: seq<bool>): (idx: seq<nat>)
    ensures forall k :: 0 <= k < |idx| ==> idx[k] < |resolved| && !resolved[idx[k]]
    ensures forall k, l :: 0 <= k < l < |idx| ==> idx[k] < idx[l]
    ensures forall i :: 0 <= i < |resolved| && !resolved[i] ==> i in idx
    decreases |resolved|
  {
    if resolved == [] then []
    else
      var n := |resolved| - 1;
      var rest := UnmetPositions(resolved[..n]);
      assert forall i :: 0 <= i < n ==> resolved[..n][i] == resolved[i];
      if resolved[n] then rest else rest + [n]
  }

  /** `nonMatchedTypes`: the types of the unmet requirements, original spelling kept, in requirement order. */
  function Unmatched(reqs: seq<Requirement>, resolved: seq<bool>): (kinds: seq<string>)
    requires |resolved| == |reqs|
    ensures |kinds| == |UnmetPositions(resolved)|
    ensures forall k :: 0 <= k < |kinds| ==> kinds[k] == reqs[UnmetPositions(resolved)[k]].kind
    decreases |reqs|
  {
    if reqs == [] then []
    else
      var n := |reqs| - 1;
      var rest := Unmatched(reqs[..n], resolved[..n]);
      assert forall i :: 0 <= i < n ==> reqs[..n][i] == reqs[i];
      if resolved[n] then rest else rest + [reqs[n].kind]
  }

  /** No type is listed exactly when every requirement was met. */
  lemma NoneUnmatched(reqs: seq<Requirement>, resolved: seq<bool>)
    requires |resolved| == |reqs|
    ensures Unmatched(reqs, resolved) == [] <==> forall i :: 0 <= i < |reqs| ==> resolved[i]
  {
    var idx := UnmetPositions(resolved);
    if idx != [] {
      assert !resolved[idx[0]];
    }
  }

  /** One line per unmet type, each after a line separator. */
  function Lines(sep: string, reqs: seq<Requirement>, kinds: seq<string>): string {
    if kinds == [] then "" else sep + FormatRequirement(kinds[0], ParamsOf(reqs, kinds[0])) + Lines(sep, reqs, kinds[1..])
  }

  /** The lines for `a + b` are the lines for `a` followed by those for `b`, so each type's line sits in its list order. */
  lemma {:induction false} LinesAppend(sep: string, reqs: seq<Requirement>, a: seq<string>, b: seq<string>)
    ensures Lines(sep, reqs, a + b) == Lines(sep, reqs, a) + Lines(sep, reqs, b)
    ensures |a| == 1 ==> Lines(sep, reqs, a) == sep + FormatRequirement(a[0], ParamsOf(reqs, a[0]))
    decreases |a|
  {
    if a == [] {
      assert a + b == b;
    } else {
      assert (a + b)[0] == a[0];
      assert (a + b)[1..] == a[1..] + b;
      LinesAppend(sep, reqs, a[1..], b);
      if |a| == 1 {
        assert a[1..] == [];
      }
    }
  }

  /** The `MojoFailureException` message: the header, the lines, then the hint on a line of its own. */
  function FailureMessage(sep: string, reqs: seq<Requirement>, kinds: seq<string>): (m: string)
    ensures StartsWith(m, Header) && EndsWith(m, sep + Hint)
    ensures |m| == |Header| + |Lines(sep, reqs, kinds)| + |sep + Hint|
    ensures m[|Header|..|m| - |sep + Hint|] == Lines(sep, reqs, kinds)
  {
    var lines := Lines(sep, reqs, kinds);
    var m := Header + lines + sep + Hint;
    assert m == Header + lines + (sep + Hint);
    assert m[..|Header|] == Header;
    assert m[|m| - |sep + Hint|..] == sep + Hint;
    assert m[|Header|..|m| - |sep + Hint|] == lines;
    m
  }

  lemma {:induction false} LinesContain(sep: string, reqs: seq<Requirement>, kinds: seq<string>, kind: string)
    requires kind in kinds
    ensures Contains(Lines(sep, reqs, kinds), sep + FormatRequirement(kind, ParamsOf(reqs, kind)))
    decreases |kinds|
  {
    var line := sep + FormatRequirement(kinds[0], ParamsOf(reqs, kinds[0]));
    assert Lines(sep, reqs, kinds) == line + Lines(sep, reqs, kinds[1..]);
    if kinds[0] == kind {
      ContainsInside("", line, Lines(sep, reqs, kinds[1..]));
      assert "" + line + Lines(sep, reqs, kinds[1..]) == Lines(sep, reqs, kinds);
    } else {
      assert kind in kinds[1..] by { assert kinds == [kinds[0]] + kinds[1..]; }
      LinesContain(sep, reqs, kinds[1..], kind);
      ContainsWiden(Lines(sep, reqs, kinds[1..]), sep + FormatRequirement(kind, ParamsOf(reqs, kind)), line, "");
      assert line + Lines(sep, reqs, kinds[1..]) + "" == Lines(sep, reqs, kinds);
    }
  }

  /** How a run of the goal ends. */
  datatype Outcome<W, E> =
    | Skipped
    | Succeeded(state: State<W, E>)
    | Failed(state: State<W, E>, message: string)
    | Aborted(state: State<W, E>, reason: string)

  /**
   * `execute`: nothing when skipped; otherwise every requirement in order,
   * then a failure naming each unmet one, if any. A run that stops early
   * ends in the exception that stopped it.
   */
  function Execute<W, E>(ctx: Context<W, E>, skipProperty: Option<string>, skipConfigured: bool,
                         s: State<W, E>, reqs: seq<Requirement>): (r: Outcome<W, E>)
    ensures r.Skipped? <==> ShouldSkip(skipProperty, skipConfigured)
    ensures r.Aborted? <==> !ShouldSkip(skipProperty, skipConfigured) && ProcessAll(ctx, s, reqs).Halted?
    ensures !r.Skipped? ==> r.state == ProcessAll(ctx, s, reqs).state
    ensures r.Aborted? ==> r.reason == ProcessAll(ctx, s, reqs).reason
  {
    if ShouldSkip(skipProperty, skipConfigured) then Skipped
    else
      match ProcessAll(ctx, s, reqs)
      case Halted(s1, reason) => Aborted(s1, reason)
      case Done(s1, resolved) =>
        var kinds := Unmatched(reqs, resolved);
        if kinds == [] then Succeeded(s1) else Failed(s1, FailureMessage(ctx.lineSeparator, reqs, kinds))
  }

  /**
   * A run that is not skipped and not stopped fails exactly when some
   * requirement is unmet. The message is the header, then one line per
   * unmet type in requirement order (see `Unmatched` and `LinesAppend`),
   * then the hint on a line of its own; it holds each unmet requirement
   * with its parameters.
   */
  lemma FailsIffUnresolved<W, E>(ctx: Context<W, E>, skipProperty: Option<string>, skipConfigured: bool,
                                 s: State<W, E>, reqs: seq<Requirement>)
    requires !ShouldSkip(skipProperty, skipConfigured) && ProcessAll(ctx, s, reqs).Done?
    ensures var resolved := ProcessAll(ctx, s, reqs).resolved;
            var r := Execute(ctx, skipProperty, skipConfigured, s, reqs);
            && (r.Succeeded? <==> forall i :: 0 <= i < |reqs| ==> resolved[i])
            && (r.Failed? <==> exists i :: 0 <= i < |reqs| && !resolved[i])
            && (r.Failed? ==>
                  && r.message == Header + Lines(ctx.lineSeparator, reqs, Unmatched(reqs, resolved)) + ctx.lineSeparator + Hint
                  && StartsWith(r.message, Header)
                  && EndsWith(r.message, ctx.lineSeparator + Hint)
                  && forall i :: 0 <= i < |reqs| && !resolved[i] ==>
                       Contains(r.message, ctx.lineSeparator + FormatRequirement(reqs[i].kind, ParamsOf(reqs, reqs[i].kind))))
  {
    var resolved := ProcessAll(ctx, s, reqs).resolved;
    var kinds := Unmatched(reqs, resolved);
    NoneUnmatched(reqs, resolved);
    forall i | 0 <= i < |reqs| && !resolved[i]
      ensures reqs[i].kind in kinds
    {
      var idx := UnmetPositions(resolved);
      var k :| 0 <= k < |idx| && idx[k] == i;
      assert kinds[k] == reqs[i].kind;
    }
    MessageShape(ctx.lineSeparator, reqs, kinds);
  }

  /** The failure message starts with the header, ends with the hint and holds a line for each type it is given. */
  lemma MessageShape(sep: string, reqs: seq<Requirement>, kinds: seq<string>)
    ensures var m := FailureMessage(sep, reqs, kinds);
            && StartsWith(m, Header)
            && EndsWith(m, sep + Hint)
            && forall kind :: kind in kinds ==> Contains(m, sep + FormatRequirement(kind, ParamsOf(reqs, kind)))
  {
    var m := FailureMessage(sep, reqs, kinds);
    var lines := Lines(sep, reqs, kinds);
    assert m == Header + lines + (sep + Hint);
    assert m[..|Header|] == Header;
    assert m[|m| - |sep + Hint|..] == sep + Hint;
    forall kind | kind in kinds
      ensures Contains(m, sep + FormatRequirement(kind, ParamsOf(reqs, kind)))
    {
      LinesContain(sep, reqs, kinds, kind);
      ContainsWiden(lines, sep + FormatRequirement(kind, ParamsOf(reqs, kind)), Header, sep + Hint);
    }
  }

  /** With distinct types, each unmet requirement's line shows its own parameters. */
  lemma FailureShowsOwnParams(reqs: seq<Requirement>, i: nat)
    requires DistinctKinds(reqs) && i < |reqs|
    ensures FormatRequirement(reqs[i].kind, ParamsOf(reqs, reqs[i].kind)) == FormatRequirement(reqs[i].kind, reqs[i].params)
  {
    ParamsOfOwn(reqs, i);
  }

  /** The line for a requirement without parameters, and for one with a version. */
  lemma FormatExamples()
    ensures FormatRequirement("testJdk", []) == "testJdk [ any ]"
    ensures FormatRequirement("jdk", [("version", "17")]) == "jdk [ version = '17' ]"
  {
  }
}

=== FILE: optional.dfy ===
/** A value that may be missing: the model's stand-in for a Java reference that may be null. */
module Optional {

  datatype Option<+T> = None | Some(value: T) {

    /** The wrapped value, or `default` when there is none. */
    function Or(default: T): T {
      match this
      case Some(v) => v
      case None => default
    }
  }
}

=== FILE: paths.dfy ===
/**
 * `java.nio.file.Path` under Unix rules, and a filesystem reduced to the
 * question the plugin asks of it: does this path exist?
 */
module Paths {
  import opened Optional
  import opened Text

  /** An absolute or relative path and its name elements. */
  datatype Path = Path(absolute: bool, segments: seq<string>)

  /** Every name element is nonempty and free of the separator, as `Paths.get` leaves them. */
  predicate WellFormed(p: Path) {
    forall k :: 0 <= k < |p.segments| ==> p.segments[k] != "" && '/' !in p.segments[k]
  }

  /** The nonempty pieces of `parts`, in order. */
  function NonEmpty(parts: seq<string>): (r: seq<string>)
    ensures |r| <= |parts|
    ensures forall k :: 0 <= k < |r| ==> r[k] != ""
    ensures forall x :: x in r <==> x in parts && x != ""
  {
    if |parts| == 0 then []
    else if parts[0] == "" then NonEmpty(parts[1..])
    else [parts[0]] + NonEmpty(parts[1..])
  }

  /** `Paths.get(s)`: a leading separator makes the path absolute; empty name elements vanish. */
  function Parse(s: string): (p: Path)
    ensures WellFormed(p)
    ensures p.absolute <==> StartsWith(s, "/")
  {
    var parts := Split(s, '/');
    var names := NonEmpty(parts);
    assert forall k :: 0 <= k < |names| ==> names[k] in parts;
    Path(StartsWith(s, "/"), names)
  }

  /** `p.toString()` */
  function Render(p: Path): string {
    (if p.absolute then "/" else "") + Join(p.segments, '/')
  }

  /** `base.resolve(other)`: an absolute `other` replaces `base`; otherwise its names are appended. */
  function Resolve(base: Path, other: string): (r: Path)
    ensures r.absolute == (base.absolute || StartsWith(other, "/"))
    ensures !StartsWith(other, "/") ==> base.segments <= r.segments
  {
    var o := Parse(other);
    if o.absolute then o else Path(base.absolute, base.segments + o.segments)
  }

  /** `base.resolve(name)` for a single literal name such as `".m2"`. */
  function Child(base: Path, name: string): Path {
    Path(base.absolute, base.segments + [name])
  }

  /** Resolving a single plain name is appending it. */
  lemma ResolveName(base: Path, name: string)
    requires name != "" && '/' !in name
    ensures Resolve(base, name) == Child(base, name)
  {
    assert Split(name, '/') == [name];
    assert NonEmpty([name]) == [name] + NonEmpty([]);
    assert name[..1] != "/" by {
      assert name[..1][0] == name[0] && name[0] in name;
    }
  }

  /** `p.toAbsolutePath()` against the working directory's names. */
  function Abs(cwd: seq<string>, p: Path): (r: Path)
    ensures r.absolute
    ensures p.absolute ==> r == p
    ensures !p.absolute ==> r.segments == cwd + p.segments
  {
    if p.absolute then p else Path(true, cwd + p.segments)
  }

  /** The directory holding `p`, if `p` has a name. */
  function Parent(p: Path): Option<Path> {
    if |p.segments| == 0 then None else Some(Path(p.absolute, p.segments[..|p.segments| - 1]))
  }

  /** `p.toFile().getName()`: the last name element, or empty for a root. */
  function LastName(p: Path): string {
    if |p.segments| == 0 then "" else p.segments[|p.segments| - 1]
  }

  /**
   * The filesystem is the set of recorded absolute paths; a path exists when
   * it is recorded or is a directory above one that is.
   */
  predicate Exists(fs: set<Path>, p: Path) {
    exists q | q in fs :: q.absolute == p.absolute && p.segments <= q.segments
  }

  /** Recording a path makes it and every directory above it exist. */
  lemma ExistsAfterAdding(fs: set<Path>, q: Path, p: Path)
    requires p.absolute == q.absolute && p.segments <= q.segments
    ensures Exists(fs + {q}, p)
  {
    assert q in fs + {q};
  }
}

=== FILE: plugin.dfy ===
/**
 * The goal wired to the real providers: SDKMAN!, JBang and Foojay acting on
 * the machine's filesystem and `~/.m2/toolchains.xml`.
 */
module Plugin {
  import opened Optional
  import opened ToolchainXml
  import opened Machine
  import opened Sdkman
  import opened JBang
  import opened FoojayHelper
  import opened ToolchainInstaller

  /** The three providers, on the given machine. */
  function LiveProviders(env: Env, platform: Platform): (p: Providers<World>)
    ensures forall w, version :: p.sdkman(w, version) == GetJdkFromSdkman(env, w, version)
    ensures forall w, version, vendor :: p.jbang(w, version, vendor) == GetJdkFromJbang(env, platform, w, version, vendor)
    ensures forall w, version, vendor :: p.foojay(w, version, vendor) == GetJdkFromFoojay(env, platform, w, version, vendor)
  {
    Providers(
      (w: World, version: Option<string>) => GetJdkFromSdkman(env, w, version),
      (w: World, version: Option<string>, vendor: string) => GetJdkFromJbang(env, platform, w, version, vendor),
      (w: World, version: Option<string>, vendor: string) => GetJdkFromFoojay(env, platform, w, version, vendor))
  }

  /**
   * The registry after one step holds one record more exactly when a
   * toolchain was obtained, the new record reading back as that toolchain;
   * otherwise it is untouched.
   */
  ghost predicate RegistersOnce(before: Registry, after: Registry, reply: Reply) {
    && (reply.Found? ==>
          && Extends(before, after)
          && |Records(after)| == |Records(before)| + 1
          && ReadRecord(Records(after)[|Records(before)|]) == Describe(reply.toolchain))
    && (!reply.Found? ==> after == before)
  }

  lemma CallRegistersOnce(env: Env, platform: Platform, which: Provider, w: World, version: Option<string>, vendor: string)
    ensures var a := Call(LiveProviders(env, platform), which, w, version, vendor);
            RegistersOnce(w.registry, a.world.registry, a.reply)
  {
  }

  /**
   * Whatever providers the chain consults, at most one registers a JDK, and
   * then the chain's toolchain is the one its record describes.
   */
  lemma {:induction false} ChainRegistersOnce(env: Env, platform: Platform, order: seq<Provider>, w: World,
                                              version: Option<string>, vendor: string)
    ensures var r := Attempt(LiveProviders(env, platform), order, w, version, vendor);
            RegistersOnce(w.registry, r.world.registry, r.reply)
    decreases |order|
  {
    if order != [] {
      var p := LiveProviders(env, platform);
      var a := Call(p, order[0], w, version, vendor);
      CallRegistersOnce(env, platform, order[0], w, version, vendor);
      if a.reply.NotFound? {
        ChainRegistersOnce(env, platform, order[1..], a.world, version, vendor);
      }
    }
  }

  /**
   * One requirement leaves the registry extended by exactly as many records
   * as models it added to the request's `jdk` list (none or one).
   */
  lemma SelectRegisters<E>(env: Env, platform: Platform, ctx: Context<World, E>, s: State<World, E>, req: Requirement)
    requires ctx.providers == LiveProviders(env, platform)
    ensures var s' := Select(ctx, s, req).state;
            && Extends(s.world.registry, s'.world.registry)
            && |Records(s'.world.registry)| - |Records(s.world.registry)| == |JdkList(s'.request)| - |JdkList(s.request)|
  {
    ChainRegistersOnce(env, platform, Order(ResolveVendor(Get(req.params, "vendor"))), s.world,
                       Get(req.params, "version"), ResolveVendor(Get(req.params, "vendor")));
  }

  /**
   * A whole run only appends to the registry, one record for every JDK a
   * provider obtained, even when the run stops early.
   */
  lemma {:induction false} RunIsAppendOnly<E>(env: Env, platform: Platform, ctx: Context<World, E>,
                                              s: State<World, E>, reqs: seq<Requirement>)
    requires ctx.providers == LiveProviders(env, platform)
    ensures var s' := ProcessAll(ctx, s, reqs).state;
            && Extends(s.world.registry, s'.world.registry)
            && |Records(s'.world.registry)| - |Records(s.world.registry)| == |JdkList(s'.request)| - |JdkList(s.request)|
    decreases |reqs|
  {
    if reqs != [] {
      SelectRegisters(env, platform, ctx, s, reqs[0]);
      var sel := Select(ctx, s, reqs[0]);
      if sel.Proceed? {
        RunIsAppendOnly(env, platform, ctx, sel.state, reqs[1..]);
        ExtendsTransitive(s.world.registry, sel.state.world.registry, ProcessAll(ctx, sel.state, reqs[1..]).state.world.registry);
      }
    }
  }
}

=== FILE: sdkman.dfy ===
/** The local provider backed by an SDKMAN! installation (`SdkmanHelper`). */
module Sdkman {
  import opened Optional
  import opened Paths
  import opened Machine

  /** `~/.sdkman/candidates/java` */
  function CandidatesDir(env: Env): Path {
    Child(Child(Child(UserHome(env), ".sdkman"), "candidates"), "java")
  }

  /**
   * `getJdkFromSdkman`: use `candidates/java/<version>` (the full version
   * string) when it exists, registering it with an empty vendor. A missing
   * candidates directory, a missing version directory, a null version (the
   * path lookup throws) and a failing registration all give null; nothing
   * escapes.
   */
  function GetJdkFromSdkman(env: Env, w: World, version: Option<string>): (a: Answer<World>)
    ensures !a.reply.Escaped?
    ensures a.world.fs == w.fs && a.world.archives == w.archives
    ensures !OnDisk(env, w, CandidatesDir(env)) ==> a == Answer(NotFound, w)
    ensures version.None? ==> a == Answer(NotFound, w)
    ensures version.Some? && !OnDisk(env, w, Resolve(CandidatesDir(env), version.value)) ==> a == Answer(NotFound, w)
    ensures version.Some? && OnDisk(env, w, CandidatesDir(env)) && OnDisk(env, w, Resolve(CandidatesDir(env), version.value))
            ==> a == Register(env, w, Resolve(CandidatesDir(env), version.value), version, "")
    ensures !a.reply.Found? ==> a.world == w
  {
    var javaDir := CandidatesDir(env);
    if !OnDisk(env, w, javaDir) then Answer(NotFound, w)
    else
      match version
      case None => Answer(NotFound, w)
      case Some(v) =>
        var jdkHome := Resolve(javaDir, v);
        if OnDisk(env, w, jdkHome) then Register(env, w, jdkHome, version, "")
        else Answer(NotFound, w)
  }

  /**
   * The version string names the directory as it is, with no major-version
   * normalisation: `"17.0.1-tem"` is looked up as `candidates/java/17.0.1-tem`.
   */
  lemma LooksUpFullVersion(env: Env, w: World, version: string)
    requires version != "" && '/' !in version
    requires OnDisk(env, w, CandidatesDir(env)) && OnDisk(env, w, Child(CandidatesDir(env), version))
    ensures GetJdkFromSdkman(env, w, Some(version)) == Register(env, w, Child(CandidatesDir(env), version), Some(version), "")
  {
    ResolveName(CandidatesDir(env), version);
  }
}

=== FILE: text.dfy ===
/**
 * The few `java.lang.String` operations the plugin relies on, over `seq<char>`:
 * prefix and suffix tests, substring search, first index of a character,
 * case folding, and a split/join pair used to read paths and query strings.
 *
 * Case folding covers ASCII letters only; Java folds the whole of Unicode.
 */
module Text {

  /** `s.startsWith(prefix)` */
  predicate StartsWith(s: string, prefix: string) {
    |prefix| <= |s| && s[..|prefix|] == prefix
  }

  /** `s.endsWith(suffix)` */
  predicate EndsWith(s: string, suffix: string) {
    |suffix| <= |s| && s[|s| - |suffix|..] == suffix
  }

  /** `s.contains(sub)`: `sub` occurs in `s` at some offset. */
  predicate Contains(s: string, sub: string) {
    exists k | 0 <= k <= |s| - |sub| :: OccursAt(s, sub, k)
  }

  /** `sub` occurs in `s` starting at offset `k`. */
  predicate OccursAt(s: string, sub: string, k: int) {
    0 <= k <= |s| - |sub| && s[k..k + |sub|] == sub
  }

  /** `s.indexOf(c)` for a character known to occur in `s`. */
  function IndexOf(s: string, c: char): (i: nat)
    requires c in s
    ensures i < |s| && s[i] == c
    ensures c !in s[..i]
  {
    if s[0] == c then 0
    else
      assert c in s[1..] by { assert s == [s[0]] + s[1..]; }
      var j := IndexOf(s[1..], c);
      assert s[..j + 1] == [s[0]] + s[1..][..j];
      j + 1
  }

  function LowerChar(c: char): char {
    if 'A' <= c <= 'Z' then (c as int + 32) as char else c
  }

  /** `s.toLowerCase()`, ASCII letters only. */
  function ToLower(s: string): (r: string)
    ensures |r| == |s|
    ensures forall i :: 0 <= i < |s| ==> r[i] == LowerChar(s[i])
  {
    seq(|s|, i requires 0 <= i < |s| => LowerChar(s[i]))
  }

  /** `a.equalsIgnoreCase(b)`, ASCII letters only. */
  predicate EqualsIgnoreCase(a: string, b: string) {
    ToLower(a) == ToLower(b)
  }

  /** The pieces of `s` between occurrences of `sep`, empty pieces included. */
  function Split(s: string, sep: char): (parts: seq<string>)
    ensures |parts| >= 1
    ensures forall k :: 0 <= k < |parts| ==> sep !in parts[k]
    decreases |s|
  {
    if sep !in s then [s]
    else
      var i := IndexOf(s, sep);
      [s[..i]] + Split(s[i + 1..], sep)
  }

  /** The pieces of `parts` with `sep` between neighbours. */
  function Join(parts: seq<string>, sep: char): string
    decreases |parts|
  {
    if |parts| == 0 then ""
    else if |parts| == 1 then parts[0]
    else parts[0] + [sep] + Join(parts[1..], sep)
  }

  /** The first `sep` in `head + [sep] + tail` is the one after `head` when `head` has none. */
  lemma IndexOfAfter(head: string, sep: char, tail: string)
    requires sep !in head
    ensures IndexOf(head + [sep] + tail, sep) == |head|
  {
    var s := head + [sep] + tail;
    assert s[|head|] == sep;
  }

  /** Text that starts with a separator-free piece and a separator splits into that piece and the split of the rest. */
  lemma SplitAt(head: string, sep: char, tail: string)
    requires sep !in head
    ensures Split(head + [sep] + tail, sep) == [head] + Split(tail, sep)
  {
    var s := head + [sep] + tail;
    IndexOfAfter(head, sep, tail);
    assert s[..|head|] == head;
    assert s[|head| + 1..] == tail;
  }

  /** Splitting a join of separator-free pieces gives back the pieces. */
  lemma {:induction false} SplitJoin(parts: seq<string>, sep: char)
    requires |parts| >= 1
    requires forall k :: 0 <= k < |parts| ==> sep !in parts[k]
    ensures Split(Join(parts, sep), sep) == parts
    decreases |parts|
  {
    if |parts| > 1 {
      var head := parts[0];
      var tail := Join(parts[1..], sep);
      assert Split(Join(parts, sep), sep) == [head] + Split(tail, sep) by {
        assert Join(parts, sep) == head + [sep] + tail;
        SplitAt(head, sep, tail);
      }
      assert Split(tail, sep) == parts[1..] by {
        SplitJoin(parts[1..], sep);
      }
      assert parts == [head] + parts[1..];
    }
  }

  /** Whatever surrounds `sub`, the whole contains it. */
  lemma ContainsInside(before: string, sub: string, after: string)
    ensures Contains(before + sub + after, sub)
  {
    var s := before + sub + after;
    assert OccursAt(s, sub, |before|) by {
      assert s[|before|..|before| + |sub|] == sub;
    }
  }

  /** Text that contains `sub` still contains it with more text around it. */
  lemma ContainsWiden(s: string, sub: string, before: string, after: string)
    requires Contains(s, sub)
    ensures Contains(before + s + after, sub)
  {
    var k :| 0 <= k <= |s| - |sub| && OccursAt(s, sub, k);
    assert s[k..k + |sub|] == sub;
    var w := before + s + after;
    assert OccursAt(w, sub, |before| + k) by {
      assert w[|before| + k..|before| + k + |sub|] == s[k..k + |sub|];
    }
  }

  /** Text lacking one of the characters of `sub` does not contain it. */
  lemma MissingChar(s: string, sub: string, c: char)
    requires c in sub && c !in s
    ensures !Contains(s, sub)
  {
    var j :| 0 <= j < |sub| && sub[j] == c;
    forall k | 0 <= k <= |s| - |sub|
      ensures !OccursAt(s, sub, k)
    {
      assert s[k + j] in s;
      assert s[k..k + |sub|][j] == s[k + j];
    }
  }
}

=== FILE: toolchain_xml.dfy ===
/**
 * The registry writer: builds the in-memory JDK toolchain handed back to the
 * caller and appends the matching `toolchain` record to `~/.m2/toolchains.xml`.
 *
 * The file is modelled by its parsed tree; parsing and serialising bytes are
 * left out. That writing a tree and reading it back gives the same tree is
 * therefore assumed by the model, not proved.
 */
module ToolchainXml {
  import opened Optional
  import opened Paths
  import opened Xml

  /** Maven's `ToolchainModel`: its type, its `provides` properties and its `configuration` element. */
  datatype ToolchainModel = ToolchainModel(kind: string, provided: map<string, string>, configuration: Node)

  /** A `DefaultJavaToolChain`: the model it was built from and its Java home. */
  datatype JavaToolchain = JavaToolchain(model: ToolchainModel, javaHome: string)

  /** What one registry record says, whichever form it is read from. */
  datatype Entry = Entry(kind: string, version: string, vendor: string, jdkHome: string)

  /** `~/.m2/toolchains.xml`: absent, present but not parseable (or not readable), or parsed. */
  datatype RegistryFile = Missing | Unreadable | Present(root: Node)

  /**
   * The registry file, and whether its permissions let it be opened for
   * writing; a missing `~/.m2` directory makes the write fail as well (see
   * `Machine.Register`).
   */
  datatype Registry = Registry(file: RegistryFile, writable: bool)

  /** `buildJdkToolchain`: a `jdk` model providing `version` and `vendor`, configured with `jdkHome`. */
  function BuildJdkToolchain(version: string, vendor: string, jdkHome: string): (t: JavaToolchain)
    ensures t.model.kind == "jdk"
    ensures t.model.provided.Keys == {"version", "vendor"}
    ensures t.model.configuration.name == "configuration"
    ensures |t.model.configuration.children| == 1
    ensures t.javaHome == jdkHome
  {
    var provided := map["version" := version, "vendor" := vendor];
    var configuration := AddChild(Empty("configuration"), Element("jdkHome", jdkHome));
    JavaToolchain(ToolchainModel("jdk", provided, configuration), jdkHome)
  }

  /** `jdkToolchainDom`: the record appended to the document. */
  function JdkToolchainDom(version: string, vendor: string, jdkHome: string): (n: Node)
    ensures n.name == "toolchain" && n.value.None? && n.attributes == []
    ensures Names(n.children) == ["type", "provides", "configuration"]
    ensures n.children[0] == Element("type", "jdk")
    ensures n.children[0].attributes == [] && n.children[1].attributes == [] && n.children[2].attributes == []
    ensures n.children[1].value.None? && n.children[1].children == [Element("version", version), Element("vendor", vendor)]
    ensures n.children[2].value.None? && n.children[2].children == [Element("jdkHome", jdkHome)]
  {
    var providesDom := AddChild(AddChild(Empty("provides"), Element("version", version)), Element("vendor", vendor));
    var configuration := AddChild(Empty("configuration"), Element("jdkHome", jdkHome));
    var withType := AddChild(Empty("toolchain"), Element("type", "jdk"));
    AddChild(AddChild(withType, providesDom), configuration)
  }

  /** Reads a `toolchain` record of the document the way its fields are looked up by name. */
  function ReadRecord(n: Node): Option<Entry> {
    if n.name != "toolchain" then None
    else
      match (ChildText(n, "type"), ChildNamed(n, "provides"), ChildNamed(n, "configuration"))
      case (Some(kind), Some(p), Some(c)) =>
        (match (ChildText(p, "version"), ChildText(p, "vendor"), ChildText(c, "jdkHome"))
         case (Some(v), Some(vd), Some(h)) => Some(Entry(kind, v, vd, h))
         case _ => None)
      case _ => None
  }

  /** Reads the same fields from an in-memory toolchain. */
  function Describe(t: JavaToolchain): Option<Entry> {
    var p := t.model.provided;
    if "version" in p && "vendor" in p then
      match ChildText(t.model.configuration, "jdkHome")
      case Some(h) => Some(Entry(t.model.kind, p["version"], p["vendor"], h))
      case None => None
    else None
  }

  /** The record written for a JDK reads back as exactly the fields it was written from. */
  lemma RecordRoundTrip(version: string, vendor: string, jdkHome: string)
    ensures ReadRecord(JdkToolchainDom(version, vendor, jdkHome)) == Some(Entry("jdk", version, vendor, jdkHome))
  {
    var n := JdkToolchainDom(version, vendor, jdkHome);
    assert FirstNamed(n.children, "type") == Some(0);
    assert FirstNamed(n.children, "provides") == Some(1);
    assert FirstNamed(n.children, "configuration") == Some(2);
    var p := n.children[1];
    assert FirstNamed(p.children, "version") == Some(0);
    assert FirstNamed(p.children, "vendor") == Some(1);
    assert FirstNamed(n.children[2].children, "jdkHome") == Some(0);
  }

  /** The returned toolchain and the appended record describe the same JDK. */
  lemma ModelAgreesWithRecord(version: string, vendor: string, jdkHome: string)
    ensures Describe(BuildJdkToolchain(version, vendor, jdkHome)) == ReadRecord(JdkToolchainDom(version, vendor, jdkHome))
    ensures Describe(BuildJdkToolchain(version, vendor, jdkHome)) == Some(Entry("jdk", version, vendor, jdkHome))
  {
    RecordRoundTrip(version, vendor, jdkHome);
    var c := BuildJdkToolchain(version, vendor, jdkHome).model.configuration;
    assert FirstNamed(c.children, "jdkHome") == Some(0);
  }

  /** The root the writer appends to: the parsed file, or a fresh `toolchains` element when there is no file. */
  function StartingRoot(file: RegistryFile): (r: Option<Node>)
    ensures file.Missing? ==> r == Some(Empty("toolchains"))
    ensures file.Present? ==> r == Some(file.root)
    ensures file.Unreadable? ==> r.None?
  {
    match file
    case Missing => Some(Empty("toolchains"))
    case Present(root) => Some(root)
    case Unreadable => None
  }

  /** The records the registry holds, as the writer would see them. */
  function Records(reg: Registry): seq<Node> {
    match StartingRoot(reg.file)
    case Some(root) => root.children
    case None => []
  }

  /**
   * `addJDKToToolchains`: register the JDK at `jdkHome`.
   * Fails (the Java method throws) when `version` is null, since
   * `Properties.setProperty` refuses a null value, when the existing file
   * cannot be parsed, and when the file cannot be opened for writing:
   * `FileWriter` creates no directory, so `dirExists` (the file's directory
   * is there) is needed as well as permission.
   */
  function AddJdkToToolchains(reg: Registry, dirExists: bool, cwd: seq<string>, jdkHome: Path, version: Option<string>,
                              vendor: string)
    : (r: Option<(JavaToolchain, Registry)>)
    ensures r.Some? <==> version.Some? && !reg.file.Unreadable? && reg.writable && dirExists
    ensures r.Some? ==>
              var home := Render(Abs(cwd, jdkHome));
              && r.value.0.javaHome == home
              && Describe(r.value.0) == Some(Entry("jdk", version.value, vendor, home))
              && r.value.1.writable == reg.writable
              && r.value.1.file == Present(AddChild(StartingRoot(reg.file).value, JdkToolchainDom(version.value, vendor, home)))
  {
    var home := Render(Abs(cwd, jdkHome));
    match version
    case None => None
    case Some(v) =>
      var toolchain := BuildJdkToolchain(v, vendor, home);
      ModelAgreesWithRecord(v, vendor, home);
      match StartingRoot(reg.file)
      case None => None
      case Some(root) =>
        if !reg.writable || !dirExists then None
        else Some((toolchain, Registry(Present(AddChild(root, JdkToolchainDom(v, vendor, home))), reg.writable)))
  }

  /**
   * `after` is `before` with zero or more records appended: the root keeps its
   * name, value and attributes and the earlier records stay, unchanged and in order.
   */
  predicate Extends(before: Registry, after: Registry) {
    before == after
    || (&& StartingRoot(before.file).Some?
        && after.file.Present?
        && after.writable == before.writable
        && var oldRoot := StartingRoot(before.file).value;
        && var newRoot := after.file.root;
        && newRoot.name == oldRoot.name
        && newRoot.value == oldRoot.value
        && newRoot.attributes == oldRoot.attributes
        && oldRoot.children <= newRoot.children)
  }

  lemma ExtendsTransitive(a: Registry, b: Registry, c: Registry)
    requires Extends(a, b) && Extends(b, c)
    ensures Extends(a, c)
  {
  }

  /**
   * A successful registration adds exactly one record, at the end, that reads
   * back as the returned toolchain; the N records already there are kept.
   */
  lemma RegistrationAppendsOneRecord(reg: Registry, dirExists: bool, cwd: seq<string>, jdkHome: Path,
                                     version: Option<string>, vendor: string)
    requires AddJdkToToolchains(reg, dirExists, cwd, jdkHome, version, vendor).Some?
    ensures var (t, after) := AddJdkToToolchains(reg, dirExists, cwd, jdkHome, version, vendor).value;
            && Extends(reg, after)
            && |Records(after)| == |Records(reg)| + 1
            && Records(reg) <= Records(after)
            && ReadRecord(Records(after)[|Records(reg)|]) == Describe(t)
            && Describe(t) == Some(Entry("jdk", version.value, vendor, t.javaHome))
  {
    var (t, after) := AddJdkToToolchains(reg, dirExists, cwd, jdkHome, version, vendor).value;
    RecordRoundTrip(version.value, vendor, t.javaHome);
  }
}

=== FILE: xml.dfy ===
/** The element tree the registry document is read into and written from (`Xpp3Dom`). */
module Xml {
  import opened Optional

  /** An element: its name, its text value if any, its attributes and its child elements, in order. */
  datatype Node = Node(name: string, value: Option<string>, attributes: seq<(string, string)>, children: seq<Node>)

  /** `new Xpp3Dom(name)`: no value, no attributes, no children. */
  function Empty(name: string): Node {
    Node(name, None, [], [])
  }

  /** An element holding only the text `text`. */
  function Element(name: string, text: string): Node {
    Node(name, Some(text), [], [])
  }

  /** The names of `nodes`, in order. */
  function Names(nodes: seq<Node>): (r: seq<string>)
    ensures |r| == |nodes|
    ensures forall k :: 0 <= k < |nodes| ==> r[k] == nodes[k].name
  {
    seq(|nodes|, k requires 0 <= k < |nodes| => nodes[k].name)
  }

  /** `parent.addChild(child)`: the child goes after all existing children, nothing else changes. */
  function AddChild(parent: Node, child: Node): (r: Node)
    ensures r.name == parent.name && r.value == parent.value && r.attributes == parent.attributes
    ensures |r.children| == |parent.children| + 1
    ensures parent.children <= r.children
    ensures r.children[|parent.children|] == child
  {
    parent.(children := parent.children + [child])
  }

  /** The position of the first of `nodes` named `name`, if any. */
  function FirstNamed(nodes: seq<Node>, name: string): (r: Option<nat>)
    ensures r.Some? ==> r.value < |nodes| && nodes[r.value].name == name
    ensures r.Some? ==> forall k :: 0 <= k < r.value ==> nodes[k].name != name
    ensures r.None? ==> forall k :: 0 <= k < |nodes| ==> nodes[k].name != name
  {
    if |nodes| == 0 then None
    else if nodes[0].name == name then Some(0)
    else match FirstNamed(nodes[1..], name)
      case None => None
      case Some(k) => Some(k + 1)
  }

  /** The first child of `n` named `name`. */
  function ChildNamed(n: Node, name: string): Option<Node> {
    match FirstNamed(n.children, name)
    case Some(k) => Some(n.children[k])
    case None => None
  }

  /** The text of the first child of `n` named `name`. */
  function ChildText(n: Node, name: string): Option<string> {
    match ChildNamed(n, name)
    case Some(c) => c.value
    case None => None
  }
}
